=== FILE: README.md ===
# AI voice demo: the decision logic, in Dafny

This project models the deterministic core of a Next.js voice-assistant demo,
and proves properties of that model. The app answers questions by voice and
text, simulates a phone call, and configures a phone system. The modelled
parts are:

- the always-listening **wake-word detector**: case-insensitive matching of
  three spellings of the wake word, gated by finality and a 0.8 confidence
  threshold; its start/stop/restart flag; its error and end handlers;
- the **transcription post-processing**: grouping Deepgram words by speaker,
  counting sentiments with the dominant one, the empty average confidence,
  and the summary;
- the **Deepgram request builder** (ordered query parameters, URL, headers)
  and the **response formatter** (first channel, first alternative, with
  defaults);
- the **streaming speech-to-text route** `POST /api/speech-to-text/stream`
  and the **chat proxy route** `POST /api/proxy`, as functions from the
  request and the upstream outcome to the answer;
- the **phone-system schema** as the list of issues a validation reports,
  and the **default configuration**;
- the state transitions of the **voice chat**, the **call simulator** and the
  **audio player**, including the `m:ss` time display.

Modules follow the source files:

| module | file | models |
|---|---|---|
| `WakeWordDetector` | `wake_word_detector.dfy` | src/utils/wake-word-detector.ts |
| `TranscriptionProcessor` | `transcription_processor.dfy` | src/utils/transcription-processor.ts |
| `Deepgram` | `deepgram.dfy` | src/app/api/utils/deepgram.ts |
| `StreamRoute` | `stream_route.dfy` | src/app/api/speech-to-text/stream/route.ts |
| `ProxyRoute` | `proxy_route.dfy` | src/app/api/proxy/route.ts |
| `PhoneSystem` | `phone_system.dfy` | src/lib/schemas/phone-system.ts |
| `VoiceChat` | `voice_chat.dfy` | src/components/voice-chat.tsx |
| `CallSimulator` | `call_simulator.dfy` | src/components/call-simulator.tsx |
| `AudioPlayer` | `audio_player.dfy` | src/components/audio-player.tsx |

Shared modules hold what several of them use:

- `Wrappers`: `Option` and `Result`.
- `Strings`: the JavaScript string operations the source calls, namely
  `toLowerCase`, `includes`, `replace` with a string pattern, `trim`, `join`,
  decimal rendering and `padStart`. It also defines `Split`, which the source
  never calls; it is there only to state that the comma-joined redaction
  list can be read back.
- `FormUrlEncoding`: `URLSearchParams` serialization with UTF-8
  percent-encoding, and a strict parser that inverts it. The parser is not
  the lenient `URLSearchParams` one: it rejects a malformed escape and keeps
  an empty entry.
- `JsonValues`: JSON values, property access and truthiness.
- `Http`: statuses and `response.ok`.
- `ChatTypes`: roles and history entries.

Everything outside the process is a parameter rather than a call. That covers
network replies, the environment's API key, generated ids, and zod's URL
test. Each React handler is one transition from the state its closure saw.

## Model

| member | source | states |
|---|---|---|
| WakeWordDetector.Create | src/utils/wake-word-detector.ts:10-14 | A new detector is not listening, and its wake word is the argument lower-cased, with no upper-case letter left in it. |
| WakeWordDetector.ContainsWakeWord | src/utils/wake-word-detector.ts:49-52 | The transcript matches exactly when one of the three spellings occurs in it at some position. |
| WakeWordDetector.OnResult | src/utils/wake-word-detector.ts:21-33 | The handler either does nothing or plays the tone and then calls the wake callback. It calls back exactly when the event's last result is final, has confidence of at least 0.8, and its lower-cased transcript contains the wake word. |
| WakeWordDetector.Start | src/utils/wake-word-detector.ts:71-76 | After `start` the detector listens. The recognizer is started only if the detector was not listening. |
| WakeWordDetector.Stop | src/utils/wake-word-detector.ts:78-83 | After `stop` the detector is not listening. The recognizer is stopped only if it was listening. |
| WakeWordDetector.Restart | src/utils/wake-word-detector.ts:85-88 | `restart` is a stop then a start. It always ends listening, and it stops the recognizer first only if it was listening. |
| WakeWordDetector.OnError | src/utils/wake-word-detector.ts:35-40 | Only the "no-speech" error restarts the detector; any other error changes nothing. |
| WakeWordDetector.OnEnd | src/utils/wake-word-detector.ts:42-46 | The end event restarts a listening detector and leaves a stopped one alone. |
| WakeWordDetector.StartStopIdempotent | src/utils/wake-word-detector.ts:71-83 | A second `start` or `stop` requests nothing and changes nothing. |
| WakeWordDetector.HandleKeepsWakeWord | src/utils/wake-word-detector.ts:13 | No handler changes the wake word fixed at construction. |
| WakeWordDetector.ListeningTracksRecognizer | src/utils/wake-word-detector.ts:35-88 | If the recognizer runs exactly when the flag says so, this still holds after any handler has run and its requested effects are done. After `onend`, which fires once the recognizer has stopped, the two agree again. |
| WakeWordDetector.NoSpeechRestartsStoppedDetector | src/utils/wake-word-detector.ts:37-39 | A "no-speech" error makes even a stopped detector listen again, starting the recognizer. |
| WakeWordDetector.MatchingIsCaseInsensitive | src/utils/wake-word-detector.ts:24 | Two transcripts that lower-case alike have the same outcome. |
| WakeWordDetector.OnlyLastResultMatters | src/utils/wake-word-detector.ts:22 | The results before the last one never change the outcome. |
| WakeWordDetector.CreateKeepsLowerCase | src/utils/wake-word-detector.ts:13 | A wake word without upper-case letters is stored unchanged. |
| WakeWordDetector.DefaultVariations | src/utils/wake-word-detector.ts:50 | The default wake word's three spellings are "hey assistant", "heyassistant" and "hey-assistant". |
| WakeWordDetector.DefaultWakeWordSpellings | src/utils/wake-word-detector.ts:10-51 | With the default wake word, each of the three spellings is recognised. |
| WakeWordDetector.DefaultWakeWordInCapitals | src/utils/wake-word-detector.ts:21-31 | A confident, final "OK Hey Assistant" wakes a detector that uses the default wake word. |
| WakeWordDetector.OnlyFirstSpaceReplaced | src/utils/wake-word-detector.ts:50 | For a wake word with two spaces, only the first space is removed or hyphenated. |
| WakeWordDetector.UnconfidentOrInterimNeverWakes | src/utils/wake-word-detector.ts:23-27 | A last result that is interim, or below the threshold, never wakes the detector. |
| TranscriptionProcessor.SpeakerIds | src/utils/transcription-processor.ts:21-25 | The speakers that get a segment are exactly those of the words with a defined speaker, each once, in increasing order. |
| TranscriptionProcessor.GroupBySpeaker | src/utils/transcription-processor.ts:18-36 | There is one segment per distinct defined speaker, in increasing speaker order. Each holds exactly that speaker's words in input order. Its text is the trim of `" " + word` over those words. |
| TranscriptionProcessor.AccumulateIsPerSpeaker | src/utils/transcription-processor.ts:21-28 | After the `forEach`, each speaker's entry holds the space-prefixed words and the word list of that speaker alone. |
| TranscriptionProcessor.WordInItsSpeakersSegment | src/utils/transcription-processor.ts:22-27 | Every word with a defined speaker lands in the segment of its speaker. |
| TranscriptionProcessor.WordOnlyInItsSpeakersSegment | src/utils/transcription-processor.ts:22-27 | A segment holds only input words that carry its speaker; words without a speaker are in no segment. |
| TranscriptionProcessor.AnalyzeSentimentTrends | src/utils/transcription-processor.ts:38-53 | The three counts are the occurrences of each sentiment and sum to the number of segments. The dominant sentiment has the maximal count, and ties go to the later category in the order positive, negative, neutral. |
| TranscriptionProcessor.LastMaximum | src/utils/transcription-processor.ts:51 | The `reduce` picks an entry of maximal count, and no later entry has the same count. |
| TranscriptionProcessor.TiesGoToNeutral | src/utils/transcription-processor.ts:51 | When the three counts are equal, including the empty case, "neutral" is dominant. |
| TranscriptionProcessor.AverageConfidence | src/utils/transcription-processor.ts:55-59 | The average of no words is 0, and an average of confidences in [0, 1] stays in [0, 1]. |
| TranscriptionProcessor.FormatTranscriptionResults | src/utils/transcription-processor.ts:3-16 | The summary passes the speaker count and the overall sentiment through, averages to 0 on no words, and carries the grouped segments and the sentiment analysis. |
| Deepgram.QueryParams | src/app/api/utils/deepgram.ts:20-32 | Parameters come in the builder's fixed order, with no name twice. Language and model are sent verbatim when non-empty. Each flag is sent as "true" exactly when it is true. Redact is sent, comma-joined, exactly for a non-empty list. |
| StreamRoute.StreamQueryIsFixed | src/app/api/speech-to-text/stream/route.ts:15-21 | The streaming options produce exactly `language`, `model=nova`, `punctuate=true` and `smart_format=true`; filler words are off and so are left out. |
| Deepgram.RequestUrl | src/app/api/utils/deepgram.ts:34 | The URL starts with the listen endpoint, and the rest parses back to exactly the builder's parameter list. |
| Deepgram.CreateDeepgramRequest | src/app/api/utils/deepgram.ts:19-44 | The request is a POST of the audio as `audio/wav` with `Authorization: Token <key>`. Its URL is the listen endpoint followed by a query that parses back to the parameter list. |
| Deepgram.RedactListRecoverable | src/app/api/utils/deepgram.ts:30-32 | When no redaction entry holds a comma, splitting the sent value gives back the list. |
| Deepgram.FirstAlternative | src/app/api/utils/deepgram.ts:48 | Optional chaining throws exactly for a null body, `results` without `channels`, or a first channel without `alternatives`. |
| Deepgram.FormatDeepgramResponse | src/app/api/utils/deepgram.ts:46-53 | The formatter fails exactly when the chain throws. Missing results, channels or alternatives give `""`, `0`, `[]`, `[]`. |
| Deepgram.FormatReadsFirstAlternative | src/app/api/utils/deepgram.ts:47-51 | A well-formed answer yields the first alternative's transcript, confidence, words and speaker labels, whatever follows it. |
| Deepgram.MissingPartsGiveEmptyTranscript | src/app/api/utils/deepgram.ts:47-51 | No results, no channel or no alternative gives the empty transcript rather than an error. |
| FormUrlEncoding.Serialize | src/app/api/utils/deepgram.ts:34 | `toString()` of the entries is empty exactly when there are none. |
| FormUrlEncoding.ParseSerialize | src/app/api/utils/deepgram.ts:34 | Parsing the serialized query gives back exactly the entries, in order. |
| FormUrlEncoding.DecodeEncode | src/app/api/utils/deepgram.ts:34 | Percent-decoding undoes the form encoding of any string. |
| StreamRoute.Get | src/app/api/speech-to-text/stream/route.ts:8 | `formData.get` returns the value of the first field with that name, or nothing when no field has it. |
| StreamRoute.ChunkLanguage | src/app/api/speech-to-text/stream/route.ts:16 | The language is the form's value when non-empty and "en-US" otherwise, so it is never empty. |
| StreamRoute.StreamPost | src/app/api/speech-to-text/stream/route.ts:5-46 | A missing or empty audio field gives exactly the 400 answer and sends nothing. A request is sent exactly for a file. A failed Deepgram status is passed through with its own message. Success needs an ok answer the formatter accepts; it sets `isComplete` exactly for `isLastChunk` equal to "true". An unreadable form, a text audio field, a failed request, an unparsable body or a throwing formatter each give exactly the generic 500. |
| StreamRoute.LanguageReachesDeepgram | src/app/api/speech-to-text/stream/route.ts:15-24 | The query Deepgram receives parses back to the chunk's language followed by the fixed options. |
| ProxyRoute.ForwardedBody | src/app/api/proxy/route.ts:27-30 | The relayed body has the message as `query`, and the history, or `[]` when the history is missing or falsy. |
| ProxyRoute.SelectAnswer | src/app/api/proxy/route.ts:57-59 | The answer is never falsy. It is an error exactly for a `null` backend reply, where the property read throws. |
| ProxyRoute.AnswerPreference | src/app/api/proxy/route.ts:58 | A truthy `answer` wins, then a truthy `response`, then the fixed fallback text. |
| ProxyRoute.ProxyPost | src/app/api/proxy/route.ts:5-68 | Only 200, 400 and 500 are produced. A message is relayed exactly when the body holds a truthy one. The 400 answers exactly a readable body without one. Success needs an ok, parsable, non-null reply. An ok but unparsable reply gets exactly the "Invalid response from backend" 500 with the unreadable-response text. A non-ok status, an unreachable backend, a `null` reply or an unreadable request all get the outer catch's "Failed to communicate with backend" 500 with the connection-help text. |
| ProxyRoute.MessageRelayedVerbatim | src/app/api/proxy/route.ts:27-28 | A truthy message is relayed unchanged as the query. |
| PhoneSystem.Utf16Length | src/lib/schemas/phone-system.ts:5 | `min(n)` counts UTF-16 code units, so the count lies between the number of characters and twice that. |
| PhoneSystem.Utf16LengthCounts | src/lib/schemas/phone-system.ts:5 | A string of Basic Multilingual Plane characters counts one unit per character. A string of characters outside that plane counts two per character. |
| PhoneSystem.Validate | src/lib/schemas/phone-system.ts:3-26 | There are no issues exactly when every field passes. A field has an issue exactly when it fails its check, and the issue carries its message. Issues come in schema order. |
| PhoneSystem.FailingExactly | src/lib/schemas/phone-system.ts:3-26 | The fields visited in schema order that are reported are exactly the failing ones. |
| PhoneSystem.FailingFromOrdered | src/lib/schemas/phone-system.ts:3-26 | Reported fields come in the schema's declaration order. |
| PhoneSystem.DefaultConfigFailsOnlyOnPhoneNumbers | src/lib/schemas/phone-system.ts:30-58 | In the default configuration every field passes except the three empty phone numbers, given that zod accepts its knowledge-base URL. |
| PhoneSystem.DefaultConfigIssues | src/lib/schemas/phone-system.ts:30-58 | Validating the default configuration reports exactly the phone number, booking number and emergency contact, in that order, each with the phone-number message. |
| VoiceChat.EditInput | src/components/voice-chat.tsx:634 | Only the input changes. It is the typed text when at most 1000 characters long, and otherwise the first 1000 characters. |
| VoiceChat.EditInputIdempotent | src/components/voice-chat.tsx:634 | Typing the truncated text again changes nothing. |
| VoiceChat.ClearChat | src/components/voice-chat.tsx:184-191 | Clearing leaves exactly the welcome message, an empty input and no audio, and keeps the processing flag and the speaker. |
| VoiceChat.StartSubmission | src/components/voice-chat.tsx:320-353 | A submit is refused exactly while processing, or when there is no retry content and the input is blank after trimming. A refused submit changes nothing. An accepted one appends one "sending" user message, clears the input, starts processing, and sends the closure's messages as history. |
| VoiceChat.HandleSubmit | src/components/voice-chat.tsx:320-353 | A refused submit changes nothing. An accepted submit keeps every earlier message and appends exactly one "sending" user message holding the retry content, or the input when there is none. It sends that text as the message, with the list as it was before the append as history. It clears the input and starts processing, and leaves the audio URL and the current speaker alone. |
| VoiceChat.BlankInputRefused | src/components/voice-chat.tsx:322-323 | A blank input without retry content, or any submit while processing, is a no-op. |
| VoiceChat.MarkDelivered | src/components/voice-chat.tsx:357 | Only the messages with the given id change, and only to status "delivered". |
| VoiceChat.MarkDeliveredIdempotent | src/components/voice-chat.tsx:357 | Marking twice is marking once. |
| VoiceChat.FinishSubmit | src/components/voice-chat.tsx:355-404 | Exactly one assistant message is appended. It is the delivered answer for an ok reply with a non-empty response, and the "error" apology otherwise. The user message is marked delivered whenever a response arrived, and processing ends in every case. |
| VoiceChat.RetryMessage | src/components/voice-chat.tsx:193-201 | Retrying anything but a user message changes nothing. Otherwise the list is cut after that message. An accepted retry appends one "sending" user message with that message's content (the input instead when that content is empty) and sends the same text, with the full, uncut list the handler closed over as history. It clears the input, starts processing, and leaves the audio URL and the current speaker alone. A refused retry leaves only the cut. |
| VoiceChat.AttachSpeaker | src/components/voice-chat.tsx:271-274 | Only user messages without a speaker get the returned speaker; every other message is unchanged. |
| VoiceChat.AttachSpeakerSticks | src/components/voice-chat.tsx:271-274 | Once a non-empty speaker is attached, a later speaker changes nothing. |
| VoiceChat.AttachSpeakerKeepsMessages | src/components/voice-chat.tsx:273 | Attaching a speaker keeps every id, role, content and status. |
| VoiceChat.HandleSpeechToText | src/components/voice-chat.tsx:249-286 | The form carries the current speaker only when there is one. A successful answer sets the input to the text and, when a speaker came back, labels the unlabelled user messages. Any failure keeps input and messages. Processing ends and the current speaker is cleared in every case. |
| VoiceChat.OnRecognitionResult | src/components/voice-chat.tsx:138-152 | Only the current speaker can change, and only for a final result. It becomes "Speaker 1" or "Speaker 2" by the parity of the index when the result has several alternatives, and empty when it has exactly one. A final result with no alternative throws when its transcript is read, so nothing changes. |
| VoiceChat.RetryButtonNeverShown | src/components/voice-chat.tsx:526 | From the initial state, no sequence of edits, clears, submits, retries, replies, transcriptions or recognition results ever gives a user message the "error" status. The retry button is therefore never shown. |
| VoiceChat.StepKeepsNoRetryButton | src/components/voice-chat.tsx:336-399 | No handler gives a user message the "error" status; only assistant messages are marked as errors. |
| CallSimulator.BeginCallSubmit | src/components/call-simulator.tsx:24-41 | A blank input or a running search makes the submit a no-op. Otherwise it clears the input, starts the search, and appends one user message holding the untrimmed input. |
| CallSimulator.Answer | src/components/call-simulator.tsx:44-98 | A failed search gives the "trouble accessing" apology. A missing or empty result list gives the "transfer you" fallback. Otherwise the answer is the first result's content. |
| CallSimulator.FinishCallSubmit | src/components/call-simulator.tsx:47-98 | Exactly one assistant message with the answer is appended, and the search is over. |
| CallSimulator.AcceptedSubmitAddsTwoMessages | src/components/call-simulator.tsx:24-98 | An accepted question adds the user message and then the answer, and leaves the input empty and no search running. |
| CallSimulator.RenderDocument | src/components/call-simulator.tsx:63-66 | A document renders as its question, or "Information" when it has none, then ": ", then its content. |
| CallSimulator.FormatContext | src/components/call-simulator.tsx:62-67 | No documents give the empty context, and one document gives its rendering alone. With several, the context starts with the first rendering followed by a blank line. |
| CallSimulator.ContextAppend | src/components/call-simulator.tsx:62-67 | The context of more documents is the earlier context, a blank line, and the new documents' context. |
| CallSimulator.StartCall | src/components/call-simulator.tsx:101-110 | Starting a call makes it active with the greeting as the only message. |
| CallSimulator.EndCall | src/components/call-simulator.tsx:112-117 | Ending a call returns to the initial state: inactive, no messages, empty input, no search. |
| AudioPlayer.TogglePlay | src/components/audio-player.tsx:29-38 | With an element attached, `isPlaying` flips and the element plays or pauses to match. Without one, nothing changes. |
| AudioPlayer.ToggleMute | src/components/audio-player.tsx:59-64 | With an element attached, `isMuted` flips and the element's `muted` matches it. Without one, nothing changes. |
| AudioPlayer.TogglesAreInvolutions | src/components/audio-player.tsx:29-64 | Pressing play, or mute, twice restores the flag, and the element agrees with it. |
| AudioPlayer.Seek | src/components/audio-player.tsx:52-57 | With an element attached, both the element and the display move to the chosen time. Without one, nothing changes. |
| AudioPlayer.Restart | src/components/audio-player.tsx:72-78 | With an element attached, the element is rewound to 0 and plays, and `isPlaying` is set. Without one, nothing changes. |
| AudioPlayer.TimeUpdate | src/components/audio-player.tsx:40-44 | The display follows the element's position, and nothing else changes. |
| AudioPlayer.LoadedMetadata | src/components/audio-player.tsx:46-50 | The duration is the element's, and nothing else changes. |
| AudioPlayer.Ended | src/components/audio-player.tsx:87-90 | The end of playback stops `isPlaying`, and the callback runs exactly when one was given. |
| AudioPlayer.TwoDigits | src/components/audio-player.tsx:69 | The seconds field is two decimal digits whose value is the seconds. |
| AudioPlayer.TwoDigitsIsPadded | src/components/audio-player.tsx:69 | The two digits are `toString().padStart(2, "0")` of the seconds. |
| AudioPlayer.FormatTime | src/components/audio-player.tsx:66-70 | The display is decimal digits, a colon, and exactly two more digits. |
| AudioPlayer.FormatTimeReadsBack | src/components/audio-player.tsx:66-70 | Reading the display back gives minutes and seconds with seconds below 60, and minutes times 60 plus seconds is the time. |
| AudioPlayer.FormatTimeInjective | src/components/audio-player.tsx:66-70 | Different times never show the same text. |
| AudioPlayer.FormatTimeOfSixtyFive | src/components/audio-player.tsx:66-70 | 65 seconds read "1:05". |
| Strings.Trim | src/utils/transcription-processor.ts:33 | `trim` returns the slice between the leading and the trailing whitespace. It is empty exactly for a blank string, and otherwise neither starts nor ends with whitespace. |
| Strings.ToLower | src/utils/wake-word-detector.ts:24 | Lower-casing keeps the length, shifts exactly the upper-case ASCII letters, and leaves no upper-case letter. |
| Strings.ReplaceFirst | src/utils/wake-word-detector.ts:50 | `replace` with a one-character string pattern replaces only the first occurrence, and does nothing when there is none. |
| Strings.IncludesIffOccurs | src/utils/wake-word-detector.ts:51 | `includes` holds exactly when the text occurs at some position. |
| Strings.SplitJoin | src/app/api/utils/deepgram.ts:31 | Splitting a comma-joined list gives it back when no entry holds a comma. |

## Left out

- The browser and network: the speech recognizers, `fetch`, `AudioContext`, the WebSocket bridge, clipboard, focus and toasts. Each network reply is an input to the handler that awaited it.
- Timers and asynchrony. The 100 ms delay in the wake-word `restart` is dropped, so the restart is one step. React batches state updates; each handler is modelled as one transition from the state its closure saw.
- Text-to-speech: `speakResponse`, `autoSpeak`, and the audio URL a reply may set.
- Logging. The call simulator's formatted context is only logged, so it is modelled (`FormatContext`) but affects no state.
- `CallSimulator.Answer` assumes every search result is a document, as the declared `Document[]` type says. A `null` entry would make `doc.metadata` throw while the context is formatted, and the caller would get the search-failed apology instead of the first result; that case is not modelled.
- Ids: `Math.random`, `Date.now` and message timestamps are parameters or omitted.
- Floating point. Audio times and durations are whole seconds, so `formatTime` works on naturals. Volume is not modelled. Confidences are reals, used for the threshold, the defaults and the average bounds.
- zod's `url()` check is a parameter `isUrl`. Issues identify a field by its position in the schema, not by zod's path array.
- `Strings.ToLower` lower-cases ASCII letters only; JavaScript's `toLowerCase` also maps other scripts.
- `VoiceChat.EditInput` cuts at 1000 characters, where `slice` counts UTF-16 code units; the two differ only for characters outside the Basic Multilingual Plane.
- `VoiceChat.HandleSpeechToText` assumes the route's `text` is a string. A reply whose text is missing or not a string, and a `data.speaker` that is truthy but not an object, are not modelled.
- `ProxyRoute.ProxyPost` relays JSON values as they are. `JSON.stringify` and the shape of `history` elements are not modelled.
- `AudioPlayer.Restart` leaves the component's `currentTime` as it was: the handler rewinds only the element, and the display catches up on the next `timeupdate`. `AudioPlayer.RestartShowsStart` states that catch-up.
- The proxy's `OPTIONS` handler only returns fixed CORS headers.
- `TranscriptionProcessor.SpeakerIds` takes speakers as naturals and orders them ascending, as `Object.entries` orders array-index keys. Speakers of 2^32 - 1 or more, and speakers that are not integers, would be listed in insertion order instead; they are not modelled.
- `VoiceChat.FinishSubmit` assumes the proxy's `response` is a string. The proxy relays any truthy JSON value there, and a non-string one would be shown as content; that case is not modelled.
- `TranscriptionProcessor.AverageConfidence` states the empty case and the [0, 1] bound, not the value of the division.

=== FILE: audio_player.dfy ===
/** The audio player (src/components/audio-player.tsx): play/pause and mute
    toggles, seeking, restarting, the `ended` event, and the `m:ss` time
    display. Times are whole seconds. Each control acts on the `<audio>`
    element when one is attached and does nothing otherwise. */
module AudioPlayer {
  import opened Wrappers
  import opened Strings

  /** The parts of the `<audio>` element the controls touch. */
  datatype AudioElement = AudioElement(playing: bool, muted: bool, position: nat, length: nat)

  /** The component state, and the element behind `audioRef`, if mounted. */
  datatype PlayerState = PlayerState(
    element: Option<AudioElement>,
    isPlaying: bool,
    currentTime: nat,
    duration: nat,
    isMuted: bool)

  const InitialPlayer: PlayerState := PlayerState(None, false, 0, 0, false)

  /** `togglePlay`: pause when playing, play otherwise, and flip `isPlaying`. */
  function TogglePlay(s: PlayerState): (t: PlayerState)
    ensures s.element.None? ==> t == s
    ensures s.element.Some? ==>
              t.isPlaying == !s.isPlaying && t.element.Some? && t.element.value.playing == t.isPlaying
              && t == s.(isPlaying := t.isPlaying, element := t.element)
              && t.element.value == s.element.value.(playing := t.isPlaying)
  {
    match s.element
    case None => s
    case Some(e) => s.(element := Some(e.(playing := !s.isPlaying)), isPlaying := !s.isPlaying)
  }

  /** `toggleMute`: set the element's `muted` to the negated flag, and flip it. */
  function ToggleMute(s: PlayerState): (t: PlayerState)
    ensures s.element.None? ==> t == s
    ensures s.element.Some? ==>
              t.isMuted == !s.isMuted && t.element == Some(s.element.value.(muted := t.isMuted))
              && t == s.(isMuted := t.isMuted, element := t.element)
  {
    match s.element
    case None => s
    case Some(e) => s.(element := Some(e.(muted := !s.isMuted)), isMuted := !s.isMuted)
  }

  /** Pressing play twice leaves the flag where it was, and so does pressing
      mute twice; the element then agrees with the flag. */
  lemma TogglesAreInvolutions(s: PlayerState)
    requires s.element.Some?
    ensures TogglePlay(TogglePlay(s)).isPlaying == s.isPlaying
    ensures TogglePlay(TogglePlay(s)).element.value.playing == s.isPlaying
    ensures ToggleMute(ToggleMute(s)).isMuted == s.isMuted
    ensures ToggleMute(ToggleMute(s)).element.value.muted == s.isMuted
  {
  }

  /** `handleSeek([value])`: the element and the display both move to `value`. */
  function Seek(s: PlayerState, value: nat): (t: PlayerState)
    ensures s.element.None? ==> t == s
    ensures s.element.Some? ==>
              t.currentTime == value && t.element == Some(s.element.value.(position := value))
              && t == s.(currentTime := value, element := t.element)
  {
    match s.element
    case None => s
    case Some(e) => s.(element := Some(e.(position := value)), currentTime := value)
  }

  /** `restart`: back to the start, playing. */
  function Restart(s: PlayerState): (t: PlayerState)
    ensures s.element.None? ==> t == s
    ensures s.element.Some? ==>
              t.currentTime == s.currentTime && t.isPlaying
              && t.element == Some(s.element.value.(position := 0, playing := true))
              && t == s.(isPlaying := true, element := t.element)
  {
    match s.element
    case None => s
    case Some(e) => s.(element := Some(e.(position := 0, playing := true)), isPlaying := true)
  }

  /** `handleTimeUpdate`: the display follows the element's position. */
  function TimeUpdate(s: PlayerState): (t: PlayerState)
    ensures s.element.None? ==> t == s
    ensures s.element.Some? ==> t == s.(currentTime := s.element.value.position)
  {
    match s.element
    case None => s
    case Some(e) => s.(currentTime := e.position)
  }

  /** `handleLoadedMetadata`: the display learns the element's duration. */
  function LoadedMetadata(s: PlayerState): (t: PlayerState)
    ensures s.element.None? ==> t == s
    ensures s.element.Some? ==> t == s.(duration := s.element.value.length)
  {
    match s.element
    case None => s
    case Some(e) => s.(duration := e.length)
  }

  /** A restart followed by the element's time update shows position 0. */
  lemma RestartShowsStart(s: PlayerState)
    requires s.element.Some?
    ensures TimeUpdate(Restart(s)).currentTime == 0 && TimeUpdate(Restart(s)).isPlaying
  {
  }

  /** The `ended` event: playing stops, and the `onEnded` callback runs
      exactly when the parent passed one. */
  function Ended(s: PlayerState, hasOnEnded: bool): (r: (PlayerState, bool))
    ensures r.0 == s.(isPlaying := false)
    ensures r.1 == hasOnEnded
  {
    (s.(isPlaying := false), hasOnEnded)
  }

  // ---------------------------------------------------------------------------
  // The time display

  /** `n.toString().padStart(2, "0")` for `n < 100`: the two decimal digits of `n`. */
  function TwoDigits(n: nat): (r: string)
    requires n < 100
    ensures |r| == 2 && AllDigits(r) && DigitsValue(r) == n
  {
    var r := [DigitChar(n / 10), DigitChar(n % 10)];
    assert r[..1] == [DigitChar(n / 10)] && r[..1][..0] == [];
    assert DigitsValue(r[..1]) == n / 10;
    r
  }

  /** `TwoDigits` is the padded decimal rendering. */
  lemma TwoDigitsIsPadded(n: nat)
    requires n < 100
    ensures TwoDigits(n) == PadStart(NatToString(n), 2, '0')
  {
    if n >= 10 {
      assert NatToString(n / 10) == [DigitChar(n / 10)];
    }
  }

  /** The display of `minutes` and `seconds`: the minutes in decimal, a
      colon, and the seconds as two digits. */
  function Clock(minutes: nat, seconds: nat): string
    requires seconds < 60
  {
    NatToString(minutes) + ":" + TwoDigits(seconds)
  }

  /** `formatTime(t)`: whole minutes and the remaining seconds, shown as
      decimal digits, a colon, and exactly two more digits. */
  function FormatTime(t: nat): (r: string)
    ensures |r| >= 4 && r[|r| - 3] == ':' && AllDigits(r[..|r| - 3]) && AllDigits(r[|r| - 2..])
  {
    ColonFields(NatToString(t / 60), TwoDigits(t % 60));
    Clock(t / 60, t % 60)
  }

  /** The text before and after the colon of `m + ":" + f`, for a two-character `f`. */
  lemma ColonFields(m: string, f: string)
    requires |f| == 2
    ensures var r := m + ":" + f;
      |r| == |m| + 3 && r[|r| - 3] == ':' && r[..|r| - 3] == m && r[|r| - 2..] == f
  {
    var r := m + ":" + f;
    assert r[..|r| - 3] == m;
    assert r[|r| - 2..] == f;
  }

  /** Whole minutes and the remaining seconds make up the time. */
  lemma MinutesAndSeconds(t: nat)
    ensures t % 60 < 60 && (t / 60) * 60 + t % 60 == t
  {
  }

  /** The number before the colon of an `m:ss` display, if it is one. */
  function MinutesShown(r: string): Option<nat> {
    if |r| >= 4 then ParseNat(r[..|r| - 3]) else None
  }

  /** The number after the colon of an `m:ss` display, if it is one. */
  function SecondsShown(r: string): Option<nat> {
    if |r| >= 4 then ParseNat(r[|r| - 2..]) else None
  }

  /** Reading the display back: the minutes and the seconds parse, the
      seconds are below 60, and together they give the time shown. */
  lemma FormatTimeReadsBack(t: nat)
    ensures MinutesShown(FormatTime(t)).Some? && SecondsShown(FormatTime(t)).Some?
    ensures SecondsShown(FormatTime(t)).value < 60
    ensures MinutesShown(FormatTime(t)).value * 60 + SecondsShown(FormatTime(t)).value == t
  {
    MinutesAndSeconds(t);
    ColonFields(NatToString(t / 60), TwoDigits(t % 60));
    ParseNatToString(t / 60);
  }

  /** Different times never show the same text. */
  lemma FormatTimeInjective(a: nat, b: nat)
    requires FormatTime(a) == FormatTime(b)
    ensures a == b
  {
    FormatTimeReadsBack(a);
    FormatTimeReadsBack(b);
  }

  /** The start of a recording reads `0:00`. */
  lemma FormatTimeAtStart(t: nat)
    requires t == 0
    ensures FormatTime(t) == "0:00"
  {
  }

  /** A minute and five seconds read `1:05`. */
  lemma FormatTimeOfSixtyFive(t: nat)
    requires t == 65
    ensures FormatTime(t) == "1:05"
  {
    assert t / 60 == 1 && t % 60 == 5;
  }
}

=== FILE: call_simulator.dfy ===
/** The call simulator (src/components/call-simulator.tsx): a simulated
    phone call in which every caller question is answered from a document
    search. The search is replaced by its outcome and the `Date.now()` ids
    are parameters. */
module CallSimulator {
  import opened Wrappers
  import opened Strings
  import opened ChatTypes

  datatype CallMessage = CallMessage(id: string, role: Role, content: string)

  datatype CallState = CallState(isCallActive: bool, isSearching: bool, messages: seq<CallMessage>, input: string)

  const InitialCall: CallState := CallState(false, false, [], "")

  const Greeting: string := "Hello! Thank you for calling Dallas Boat Tours. How can I assist you today?"
  const NoInformation: string :=
    "I apologize, but I don't have specific information about that. Let me transfer you to a human agent who can help you better."
  const SearchFailed: string :=
    "I apologize, but I'm having trouble accessing the information. Let me transfer you to a human agent."

  /** The heading used for a document without a (non-empty) `metadata.question`. */
  const DefaultQuestion: string := "Information"

  /** A search hit: its text and the optional `metadata.question`. */
  datatype SearchDocument = SearchDocument(content: string, question: Option<string>)

  /** How `searchDocuments` ended: it threw, or it returned a response whose
      `results` list may be missing (`None`, also for a `null` response). */
  datatype SearchOutcome = SearchThrew | SearchReturned(results: Option<seq<SearchDocument>>)

  /** `${doc.metadata?.question || "Information"}: ${doc.content}`. */
  function RenderDocument(d: SearchDocument): (r: string)
    ensures var heading := if d.question.Some? && d.question.value != "" then d.question.value else DefaultQuestion;
      |r| == |heading| + 2 + |d.content| && r[..|heading|] == heading && r[|heading|..|heading| + 2] == ": "
      && r[|heading| + 2..] == d.content
  {
    var heading := if d.question.Some? && d.question.value != "" then d.question.value else DefaultQuestion;
    heading + ": " + d.content
  }

  function Renderings(docs: seq<SearchDocument>): (r: seq<string>)
    ensures |r| == |docs|
    ensures forall i :: 0 <= i < |docs| ==> r[i] == RenderDocument(docs[i])
  {
    seq(|docs|, i requires 0 <= i < |docs| => RenderDocument(docs[i]))
  }

  /** The context built from the results: each rendered document, separated by a blank line. */
  function FormatContext(docs: seq<SearchDocument>): (r: string)
    ensures docs == [] ==> r == ""
    ensures |docs| == 1 ==> r == RenderDocument(docs[0])
    ensures |docs| >= 2 ==>
              var first := RenderDocument(docs[0]);
              |r| >= |first| + 2 && r[..|first| + 2] == first + "\n\n"
  {
    var r := Join(Renderings(docs), "\n\n");
    assert |docs| >= 2 ==> r == RenderDocument(docs[0]) + "\n\n" + Join(Renderings(docs)[1..], "\n\n");
    r
  }

  /** Adding documents adds their renderings after a blank line, leaving the
      earlier context unchanged. */
  lemma ContextAppend(a: seq<SearchDocument>, b: seq<SearchDocument>)
    requires |a| >= 1 && |b| >= 1
    ensures FormatContext(a + b) == FormatContext(a) + "\n\n" + FormatContext(b)
  {
    assert Renderings(a + b) == Renderings(a) + Renderings(b);
    JoinAppend(Renderings(a), Renderings(b), "\n\n");
  }

  /** The guard of `handleSubmit`: a blank input, or a search in progress. */
  predicate SubmitRefused(s: CallState) {
    IsBlank(s.input) || s.isSearching
  }

  /** The synchronous part of `handleSubmit`: the input is cleared and the
      question, untrimmed, is appended as a user message while the search runs. */
  function BeginCallSubmit(s: CallState, id: string): (t: CallState)
    ensures SubmitRefused(s) ==> t == s
    ensures !SubmitRefused(s) ==>
              t == s.(messages := s.messages + [CallMessage(id, User, s.input)], input := "", isSearching := true)
  {
    if Trim(s.input) == [] || s.isSearching then s
    else s.(input := "", isSearching := true, messages := s.messages + [CallMessage(id, User, s.input)])
  }

  /** The answer to the caller: the first hit's content, the fallback when
      there is none, the apology when the search failed. */
  function Answer(outcome: SearchOutcome): (a: string)
    ensures outcome.SearchThrew? ==> a == SearchFailed
    ensures outcome.SearchReturned? && outcome.results.Some? && |outcome.results.value| > 0 ==>
              a == outcome.results.value[0].content
    ensures outcome.SearchReturned? && (outcome.results.None? || |outcome.results.value| == 0) ==> a == NoInformation
  {
    match outcome
    case SearchThrew => SearchFailed
    case SearchReturned(results) =>
      if results.None? || |results.value| == 0 then NoInformation else results.value[0].content
  }

  /** The rest of `handleSubmit`, once the search has settled: exactly one
      assistant message is appended and the search is over. */
  function FinishCallSubmit(s: CallState, outcome: SearchOutcome, id: string): (t: CallState)
    ensures t.messages == s.messages + [CallMessage(id, Assistant, Answer(outcome))]
    ensures !t.isSearching
    ensures t.isCallActive == s.isCallActive && t.input == s.input
  {
    s.(messages := s.messages + [CallMessage(id, Assistant, Answer(outcome))], isSearching := false)
  }

  /** A whole accepted question: one user message with the untrimmed input,
      then one assistant message, and nothing else changed but the input. */
  lemma AcceptedSubmitAddsTwoMessages(s: CallState, outcome: SearchOutcome, userId: string, answerId: string)
    requires !IsBlank(s.input) && !s.isSearching
    ensures var t := FinishCallSubmit(BeginCallSubmit(s, userId), outcome, answerId);
      t.messages == s.messages + [CallMessage(userId, User, s.input), CallMessage(answerId, Assistant, Answer(outcome))]
      && t.input == "" && !t.isSearching && t.isCallActive == s.isCallActive
  {
  }

  /** `handleStartCall`: the call is active and holds only the greeting. */
  function StartCall(s: CallState, id: string): (t: CallState)
    ensures t.isCallActive && t.messages == [CallMessage(id, Assistant, Greeting)]
    ensures t.input == s.input && t.isSearching == s.isSearching
  {
    s.(isCallActive := true, messages := [CallMessage(id, Assistant, Greeting)])
  }

  /** `handleEndCall`: everything is back to the initial state. */
  function EndCall(s: CallState): (t: CallState)
    ensures t == InitialCall
  {
    s.(isCallActive := false, messages := [], input := "", isSearching := false)
  }

  /** Ending a call forgets the call entirely: whatever happened before, the
      state is the one the component starts in. */
  lemma EndCallForgetsCall(s: CallState, u: CallState, id: string)
    ensures EndCall(s) == EndCall(u) && EndCall(StartCall(s, id)) == InitialCall
  {
  }
}

=== FILE: chat_types.dfy ===
/** Types shared by the chat components and the chat proxy route. */
module ChatTypes {

  /** Who wrote a chat message. */
  datatype Role = User | Assistant

  /** The role as it is written into a JSON request body. */
  function RoleName(r: Role): string {
    match r
    case User => "user"
    case Assistant => "assistant"
  }

  /** One `{role, content}` element of the `history` array sent to the chat
      backend. */
  datatype HistoryEntry = HistoryEntry(role: string, content: string)
}

=== FILE: deepgram.dfy ===
/** The helpers that build a request to the Deepgram `listen` endpoint and
    flatten its JSON answer (src/app/api/utils/deepgram.ts). */
module Deepgram {
  import opened Wrappers
  import opened Strings
  import opened FormUrlEncoding
  import TranscriptionProcessor

  /** The endpoint every request goes to; the query string follows the `?`. */
  const ListenEndpoint: string := "https://api.deepgram.com/v1/listen?"

  /** The options a caller may set; every field is optional. */
  datatype TranscriptionOptions = TranscriptionOptions(
    language: Option<string>,
    model: Option<string>,
    punctuate: Option<bool>,
    profanityFilter: Option<bool>,
    diarize: Option<bool>,
    smartFormat: Option<bool>,
    fillerWords: Option<bool>,
    redact: Option<seq<string>>)

  /** The query parameters the builder can append, in the order it appends them. */
  datatype ParamName = Language | Model | Punctuate | ProfanityFilter | Diarize | SmartFormat | FillerWords | Redact

  function NameText(n: ParamName): string {
    match n
    case Language => "language"
    case Model => "model"
    case Punctuate => "punctuate"
    case ProfanityFilter => "profanity_filter"
    case Diarize => "diarize"
    case SmartFormat => "smart_format"
    case FillerWords => "filler_words"
    case Redact => "redact"
  }

  /** Position of a parameter in the builder's fixed order. */
  function Rank(n: ParamName): nat {
    match n
    case Language => 0
    case Model => 1
    case Punctuate => 2
    case ProfanityFilter => 3
    case Diarize => 4
    case SmartFormat => 5
    case FillerWords => 6
    case Redact => 7
  }

  datatype Param = Param(name: ParamName, value: string)

  /** JavaScript truthiness of an optional string: present and non-empty. */
  predicate IsSet(s: Option<string>) {
    s.Some? && s.value != ""
  }

  /** JavaScript truthiness of an optional flag. */
  predicate IsOn(b: Option<bool>) {
    b == Some(true)
  }

  /** The value of the first parameter called `n`. */
  function Lookup(ps: seq<Param>, n: ParamName): Option<string> {
    if |ps| == 0 then None
    else if ps[0].name == n then Some(ps[0].value)
    else Lookup(ps[1..], n)
  }

  /** Names strictly follow the builder's order, so none repeats. */
  predicate InBuilderOrder(ps: seq<Param>) {
    forall i, j :: 0 <= i < j < |ps| ==> Rank(ps[i].name) < Rank(ps[j].name)
  }

  function TextParam(n: ParamName, v: Option<string>): seq<Param> {
    if IsSet(v) then [Param(n, v.value)] else []
  }

  function FlagParam(n: ParamName, b: Option<bool>): seq<Param> {
    if IsOn(b) then [Param(n, "true")] else []
  }

  /** `redact` is sent, comma-joined, only for a non-empty list. */
  function RedactParam(r: Option<seq<string>>): seq<Param> {
    if r.Some? && |r.value| > 0 then [Param(Redact, Join(r.value, ","))] else []
  }

  lemma LookupAppend(a: seq<Param>, b: seq<Param>, n: ParamName)
    ensures Lookup(a + b, n) == if Lookup(a, n).Some? then Lookup(a, n) else Lookup(b, n)
  {
    if |a| > 0 {
      assert (a + b)[1..] == a[1..] + b;
      LookupAppend(a[1..], b, n);
    } else {
      assert a + b == b;
    }
  }

  /** Group `k` holds at most one parameter, and it has rank `k`. */
  predicate RankGrouped(groups: seq<seq<Param>>) {
    && (forall k :: 0 <= k < |groups| ==> |groups[k]| <= 1)
    && (forall k, i :: 0 <= k < |groups| && 0 <= i < |groups[k]| ==> Rank(groups[k][i].name) == k)
  }

  /** What each `if` of the builder appends, one group per parameter. */
  function Groups(o: TranscriptionOptions): (groups: seq<seq<Param>>)
    ensures |groups| == 8 && RankGrouped(groups)
    ensures groups[Rank(Language)] == TextParam(Language, o.language)
    ensures groups[Rank(Model)] == TextParam(Model, o.model)
    ensures groups[Rank(Punctuate)] == FlagParam(Punctuate, o.punctuate)
    ensures groups[Rank(ProfanityFilter)] == FlagParam(ProfanityFilter, o.profanityFilter)
    ensures groups[Rank(Diarize)] == FlagParam(Diarize, o.diarize)
    ensures groups[Rank(SmartFormat)] == FlagParam(SmartFormat, o.smartFormat)
    ensures groups[Rank(FillerWords)] == FlagParam(FillerWords, o.fillerWords)
    ensures groups[Rank(Redact)] == RedactParam(o.redact)
  {
    [TextParam(Language, o.language), TextParam(Model, o.model), FlagParam(Punctuate, o.punctuate),
     FlagParam(ProfanityFilter, o.profanityFilter), FlagParam(Diarize, o.diarize),
     FlagParam(SmartFormat, o.smartFormat), FlagParam(FillerWords, o.fillerWords), RedactParam(o.redact)]
  }

  lemma TextParamLookup(n: ParamName, v: Option<string>)
    ensures Lookup(TextParam(n, v), n) == if IsSet(v) then v else None
  {
  }

  lemma FlagParamLookup(n: ParamName, b: Option<bool>)
    ensures Lookup(FlagParam(n, b), n) == if IsOn(b) then Some("true") else None
  {
  }

  lemma RedactParamLookup(r: Option<seq<string>>)
    ensures Lookup(RedactParam(r), Redact) == if r.Some? && |r.value| > 0 then Some(Join(r.value, ",")) else None
  {
  }

  /** The `URLSearchParams` the builder fills in, as a list of entries. */
  function QueryParams(o: TranscriptionOptions): (ps: seq<Param>)
    ensures InBuilderOrder(ps)
    ensures Lookup(ps, Language) == (if IsSet(o.language) then o.language else None)
    ensures Lookup(ps, Model) == (if IsSet(o.model) then o.model else None)
    ensures Lookup(ps, Punctuate) == (if IsOn(o.punctuate) then Some("true") else None)
    ensures Lookup(ps, ProfanityFilter) == (if IsOn(o.profanityFilter) then Some("true") else None)
    ensures Lookup(ps, Diarize) == (if IsOn(o.diarize) then Some("true") else None)
    ensures Lookup(ps, SmartFormat) == (if IsOn(o.smartFormat) then Some("true") else None)
    ensures Lookup(ps, FillerWords) == (if IsOn(o.fillerWords) then Some("true") else None)
    ensures Lookup(ps, Redact) == (if o.redact.Some? && |o.redact.value| > 0 then Some(Join(o.redact.value, ",")) else None)
  {
    var groups := Groups(o);
    FlattenOrder(groups);
    FlattenLookup(groups, Language);
    TextParamLookup(Language, o.language);
    FlattenLookup(groups, Model);
    TextParamLookup(Model, o.model);
    FlattenLookup(groups, Punctuate);
    FlagParamLookup(Punctuate, o.punctuate);
    FlattenLookup(groups, ProfanityFilter);
    FlagParamLookup(ProfanityFilter, o.profanityFilter);
    FlattenLookup(groups, Diarize);
    FlagParamLookup(Diarize, o.diarize);
    FlattenLookup(groups, SmartFormat);
    FlagParamLookup(SmartFormat, o.smartFormat);
    FlattenLookup(groups, FillerWords);
    FlagParamLookup(FillerWords, o.fillerWords);
    FlattenLookup(groups, Redact);
    RedactParamLookup(o.redact);
    Flatten(groups)
  }

  /** The groups laid end to end. */
  function Flatten(groups: seq<seq<Param>>): seq<Param>
    decreases |groups|
  {
    if |groups| == 0 then [] else groups[0] + Flatten(groups[1..])
  }

  /** Eight groups laid end to end, written out. */
  lemma FlattenEight(groups: seq<seq<Param>>)
    requires |groups| == 8
    ensures Flatten(groups) == groups[0] + groups[1] + groups[2] + groups[3] + groups[4] + groups[5] + groups[6] + groups[7]
  {
    var g := groups;
    assert Flatten(g[7..]) == g[7] by { assert g[7..][1..] == []; }
    assert Flatten(g[6..]) == g[6] + Flatten(g[7..]) by { assert g[6..][1..] == g[7..]; }
    assert Flatten(g[5..]) == g[5] + Flatten(g[6..]) by { assert g[5..][1..] == g[6..]; }
    assert Flatten(g[4..]) == g[4] + Flatten(g[5..]) by { assert g[4..][1..] == g[5..]; }
    assert Flatten(g[3..]) == g[3] + Flatten(g[4..]) by { assert g[3..][1..] == g[4..]; }
    assert Flatten(g[2..]) == g[2] + Flatten(g[3..]) by { assert g[2..][1..] == g[3..]; }
    assert Flatten(g[1..]) == g[1] + Flatten(g[2..]) by { assert g[1..][1..] == g[2..]; }
  }

  /** When group `k` holds at most one parameter, of rank `k`, flattening
      keeps them in rank order. */
  lemma FlattenOrder(groups: seq<seq<Param>>)
    requires RankGrouped(groups)
    ensures InBuilderOrder(Flatten(groups))
  {
    ShiftedOrder(groups, 0);
  }

  /** `FlattenOrder` for groups whose ranks start at `base` instead of 0. */
  lemma {:induction false} ShiftedOrder(groups: seq<seq<Param>>, base: nat)
    requires forall k :: 0 <= k < |groups| ==> |groups[k]| <= 1
    requires forall k, i :: 0 <= k < |groups| && 0 <= i < |groups[k]| ==> Rank(groups[k][i].name) == base + k
    ensures InBuilderOrder(Flatten(groups))
    ensures forall i :: 0 <= i < |Flatten(groups)| ==> base <= Rank(Flatten(groups)[i].name) < base + |groups|
    decreases |groups|
  {
    if |groups| > 0 {
      ShiftedOrder(groups[1..], base + 1);
      var rest := Flatten(groups[1..]);
      var ps := groups[0] + rest;
      forall i | 0 <= i < |ps|
        ensures base <= Rank(ps[i].name) < base + |groups|
      {
        if i >= |groups[0]| {
          assert ps[i] == rest[i - |groups[0]|];
        }
      }
      forall i, j | 0 <= i < j < |ps|
        ensures Rank(ps[i].name) < Rank(ps[j].name)
      {
        if j < |groups[0]| {
        } else if i < |groups[0]| {
          assert ps[j] == rest[j - |groups[0]|];
        } else {
          assert ps[i] == rest[i - |groups[0]|];
          assert ps[j] == rest[j - |groups[0]|];
        }
      }
    }
  }

  /** In rank-grouped parameters, a name is found in the group of its rank. */
  lemma {:induction false} FlattenLookup(groups: seq<seq<Param>>, n: ParamName)
    requires |groups| == 8 && RankGrouped(groups)
    ensures Lookup(Flatten(groups), n) == Lookup(groups[Rank(n)], n)
  {
    ShiftedLookup(groups, 0, n);
  }

  lemma {:induction false} ShiftedLookup(groups: seq<seq<Param>>, base: nat, n: ParamName)
    requires base <= Rank(n) < base + |groups|
    requires forall k, i :: 0 <= k < |groups| && 0 <= i < |groups[k]| ==> Rank(groups[k][i].name) == base + k
    ensures Lookup(Flatten(groups), n) == Lookup(groups[Rank(n) - base], n)
    decreases |groups|
  {
    LookupAppend(groups[0], Flatten(groups[1..]), n);
    if Rank(n) == base {
      if Lookup(groups[0], n) == None {
        LookupFlattenAbove(groups[1..], base + 1, n);
      }
    } else {
      LookupOtherRank(groups[0], n, base);
      ShiftedLookup(groups[1..], base + 1, n);
    }
  }

  /** A name whose rank is below every group's is not found. */
  lemma {:induction false} LookupFlattenAbove(groups: seq<seq<Param>>, base: nat, n: ParamName)
    requires Rank(n) < base
    requires forall k, i :: 0 <= k < |groups| && 0 <= i < |groups[k]| ==> Rank(groups[k][i].name) == base + k
    ensures Lookup(Flatten(groups), n) == None
    decreases |groups|
  {
    if |groups| > 0 {
      LookupAppend(groups[0], Flatten(groups[1..]), n);
      LookupOtherRank(groups[0], n, base);
      LookupFlattenAbove(groups[1..], base + 1, n);
    }
  }

  /** Parameters that all have another rank do not hold the name. */
  lemma {:induction false} LookupOtherRank(ps: seq<Param>, n: ParamName, rank: nat)
    requires Rank(n) != rank
    requires forall i :: 0 <= i < |ps| ==> Rank(ps[i].name) == rank
    ensures Lookup(ps, n) == None
    decreases |ps|
  {
    if |ps| > 0 {
      LookupOtherRank(ps[1..], n, rank);
    }
  }

  /** The entries as the form serializer sees them. */
  function ToPairs(ps: seq<Param>): (pairs: seq<Pair>)
    ensures |pairs| == |ps|
    ensures forall i :: 0 <= i < |ps| ==> pairs[i] == Pair(NameText(ps[i].name), ps[i].value)
  {
    seq(|ps|, i requires 0 <= i < |ps| => Pair(NameText(ps[i].name), ps[i].value))
  }

  /** `https://api.deepgram.com/v1/listen?${queryParams.toString()}`. */
  function RequestUrl(o: TranscriptionOptions): (url: string)
    ensures |url| >= |ListenEndpoint| && url[..|ListenEndpoint|] == ListenEndpoint
    ensures Parse(url[|ListenEndpoint|..]) == Some(ToPairs(QueryParams(o)))
  {
    var url := ListenEndpoint + Serialize(ToPairs(QueryParams(o)));
    assert url[|ListenEndpoint|..] == Serialize(ToPairs(QueryParams(o)));
    ParseSerialize(ToPairs(QueryParams(o)));
    url
  }

  /** The request `createDeepgramRequest` hands to `fetch`. */
  datatype DeepgramRequest = DeepgramRequest(
    url: string,
    httpMethod: string,
    authorization: string,
    contentType: string,
    body: seq<bv8>)

  /** Builds the request; `apiKey` is the `DEEPGRAM_API_KEY` environment
      variable, which the template literal renders as `undefined` when unset. */
  function CreateDeepgramRequest(audio: seq<bv8>, o: TranscriptionOptions, apiKey: Option<string>): (r: DeepgramRequest)
    ensures r.httpMethod == "POST" && r.contentType == "audio/wav" && r.body == audio
    ensures r.authorization == "Token " + apiKey.GetOr("undefined")
    ensures |r.url| >= |ListenEndpoint| && r.url[..|ListenEndpoint|] == ListenEndpoint
    ensures Parse(r.url[|ListenEndpoint|..]) == Some(ToPairs(QueryParams(o)))
  {
    DeepgramRequest(RequestUrl(o), "POST", "Token " + apiKey.GetOr("undefined"), "audio/wav", audio)
  }

  /** The redaction list comes back from the query when no entry holds a comma. */
  lemma RedactListRecoverable(o: TranscriptionOptions)
    requires o.redact.Some? && |o.redact.value| > 0
    requires forall i :: 0 <= i < |o.redact.value| ==> ',' !in o.redact.value[i]
    ensures Lookup(QueryParams(o), Redact).Some?
    ensures Split(Lookup(QueryParams(o), Redact).value, ',') == o.redact.value
  {
    SplitJoin(o.redact.value, ',');
  }

  // ---------------------------------------------------------------------------
  // formatDeepgramResponse

  /** `{speaker, confidence}` entries of `speaker_labels`. */
  datatype SpeakerLabel = SpeakerLabel(speaker: nat, confidence: real)

  /** The parts of the Deepgram JSON answer the formatter reads; `None` is a
      missing (or `null`) property. */
  datatype Alternative = Alternative(
    transcript: Option<string>,
    confidence: Option<real>,
    words: Option<seq<TranscriptionProcessor.Word>>,
    speakerLabels: Option<seq<SpeakerLabel>>)

  datatype Channel = Channel(alternatives: Option<seq<Alternative>>)

  datatype ListenResults = ListenResults(channels: Option<seq<Channel>>)

  /** The parsed body: `null`, or an object that may carry `results`. */
  datatype ListenBody = NullBody | ListenBody(results: Option<ListenResults>)

  /** What the formatter returns. */
  datatype FormattedTranscript = FormattedTranscript(
    transcript: string,
    confidence: real,
    words: seq<TranscriptionProcessor.Word>,
    speakers: seq<SpeakerLabel>)

  /** Reading a property of `undefined` or `null` throws a `TypeError`. */
  datatype FormatError = TypeError

  /** The shapes that make `data.results?.channels[0]?.alternatives[0]` throw:
      `data` itself null, `results` without `channels`, or a first channel
      without `alternatives`. */
  predicate Throws(data: ListenBody) {
    data.NullBody?
    || (data.results.Some? && data.results.value.channels.None?)
    || (data.results.Some? && data.results.value.channels.Some? && |data.results.value.channels.value| > 0
        && data.results.value.channels.value[0].alternatives.None?)
  }

  /** `data.results?.channels[0]?.alternatives[0]`: optional chaining stops
      at a missing `results` or a missing first channel or alternative. */
  function FirstAlternative(data: ListenBody): (r: Result<Option<Alternative>, FormatError>)
    ensures r.Err? <==> Throws(data)
  {
    match data
    case NullBody => Err(TypeError)
    case ListenBody(None) => Ok(None)
    case ListenBody(Some(ListenResults(None))) => Err(TypeError)
    case ListenBody(Some(ListenResults(Some(channels)))) =>
      if |channels| == 0 then Ok(None)
      else match channels[0].alternatives
        case None => Err(TypeError)
        case Some(alts) => if |alts| == 0 then Ok(None) else Ok(Some(alts[0]))
  }

  /** The empty transcript the formatter falls back to field by field. */
  const EmptyTranscript: FormattedTranscript := FormattedTranscript("", 0.0, [], [])

  /** `formatDeepgramResponse`: each field of the first alternative, or its
      default (`""`, `0`, `[]`) when missing or falsy. */
  function FormatDeepgramResponse(data: ListenBody): (r: Result<FormattedTranscript, FormatError>)
    ensures r.Err? <==> Throws(data)
    ensures r.Ok? && FirstAlternative(data) == Ok(None) ==> r.value == EmptyTranscript
  {
    match FirstAlternative(data)
    case Err(e) => Err(e)
    case Ok(None) => Ok(EmptyTranscript)
    case Ok(Some(alt)) =>
      Ok(FormattedTranscript(
        alt.transcript.GetOr(""),
        alt.confidence.GetOr(0.0),
        alt.words.GetOr([]),
        alt.speakerLabels.GetOr([])))
  }

  /** A well-formed answer comes out exactly as its first alternative says,
      whatever follows it. */
  lemma FormatReadsFirstAlternative(alt: Alternative, moreAlts: seq<Alternative>, moreChannels: seq<Channel>,
                                    t: string, c: real, ws: seq<TranscriptionProcessor.Word>, ls: seq<SpeakerLabel>)
    requires alt == Alternative(Some(t), Some(c), Some(ws), Some(ls))
    ensures var data := ListenBody(Some(ListenResults(Some([Channel(Some([alt] + moreAlts))] + moreChannels))));
      FormatDeepgramResponse(data) == Ok(FormattedTranscript(t, c, ws, ls))
  {
  }

  /** An answer with no results, no channel or no alternative formats to the
      empty transcript instead of failing. */
  lemma MissingPartsGiveEmptyTranscript(data: ListenBody)
    requires data.ListenBody?
    requires data.results.None?
      || (data.results.value.channels.Some? && |data.results.value.channels.value| == 0)
      || (data.results.value.channels.Some? && |data.results.value.channels.value| > 0
          && data.results.value.channels.value[0].alternatives.Some?
          && |data.results.value.channels.value[0].alternatives.value| == 0)
    ensures FormatDeepgramResponse(data) == Ok(EmptyTranscript)
  {
  }
}

=== FILE: form_encoding.dfy ===
/** The `application/x-www-form-urlencoded` serializer that
    `URLSearchParams.prototype.toString` applies to a query, and a strict
    parser that undoes it. Characters are Unicode scalar values; anything
    outside the unreserved set is percent-encoded byte by byte from its UTF-8
    form, and a space becomes `+`. */
module FormUrlEncoding {
  import opened Wrappers
  import opened Strings

  /** The characters the serializer copies unchanged: ASCII letters and
      digits and `*`, `-`, `.`, `_`. */
  predicate IsUnreserved(c: char) {
    ('a' <= c <= 'z') || ('A' <= c <= 'Z') || ('0' <= c <= '9') || c == '*' || c == '-' || c == '.' || c == '_'
  }

  /** A character the serializer can emit. */
  predicate IsEncodedChar(c: char) {
    IsUnreserved(c) || c == '+' || c == '%'
  }

  predicate IsHexDigit(c: char) {
    ('0' <= c <= '9') || ('A' <= c <= 'F') || ('a' <= c <= 'f')
  }

  // ---------------------------------------------------------------------------
  // UTF-8

  /** A continuation byte `10xxxxxx`. */
  predicate IsContinuation(b: nat) {
    0x80 <= b < 0xC0
  }

  /** The UTF-8 encoding of one scalar value. */
  function Utf8(c: char): (bytes: seq<nat>)
    ensures 1 <= |bytes| <= 4
    ensures forall i :: 0 <= i < |bytes| ==> bytes[i] < 256
    ensures |bytes| == 1 <==> c as int < 0x80
    ensures |bytes| == 1 ==> bytes[0] == c as int
    ensures |bytes| == 2 ==> 0xC0 <= bytes[0] < 0xE0
    ensures |bytes| == 3 ==> 0xE0 <= bytes[0] < 0xF0
    ensures |bytes| == 4 ==> 0xF0 <= bytes[0] < 0xF8
    ensures forall i :: 1 <= i < |bytes| ==> IsContinuation(bytes[i])
  {
    var v := c as int;
    if v < 0x80 then [v]
    else if v < 0x800 then [0xC0 + v / 64, 0x80 + v % 64]
    else if v < 0x10000 then [0xE0 + v / 4096, 0x80 + (v / 64) % 64, 0x80 + v % 64]
    else [0xF0 + v / 262144, 0x80 + (v / 4096) % 64, 0x80 + (v / 64) % 64, 0x80 + v % 64]
  }

  /** The scalar value a UTF-8 sequence of 1 to 4 bytes stands for, if it
      stands for one. */
  function Utf8Value(bytes: seq<nat>): Option<char> {
    if |bytes| == 1 && bytes[0] < 0x80 then Some(bytes[0] as char)
    else if |bytes| == 2 && 0xC0 <= bytes[0] < 0xE0 && IsContinuation(bytes[1]) then
      AsChar((bytes[0] - 0xC0) * 64 + (bytes[1] - 0x80))
    else if |bytes| == 3 && 0xE0 <= bytes[0] < 0xF0 && IsContinuation(bytes[1]) && IsContinuation(bytes[2]) then
      AsChar(((bytes[0] - 0xE0) * 64 + (bytes[1] - 0x80)) * 64 + (bytes[2] - 0x80))
    else if |bytes| == 4 && 0xF0 <= bytes[0] < 0xF8 && IsContinuation(bytes[1])
      && IsContinuation(bytes[2]) && IsContinuation(bytes[3]) then
      AsChar((((bytes[0] - 0xF0) * 64 + (bytes[1] - 0x80)) * 64 + (bytes[2] - 0x80)) * 64 + (bytes[3] - 0x80))
    else None
  }

  /** The character with scalar value `v`, unless `v` is a surrogate or out of range. */
  function AsChar(v: int): (r: Option<char>)
    ensures r.Some? ==> r.value as int == v
  {
    if (0 <= v < 0xD800) || (0xE000 <= v < 0x11_0000) then Some(v as char) else None
  }

  /** How many bytes a sequence starting with lead byte `b` has. */
  function SequenceLength(b: nat): nat {
    if b < 0x80 then 1 else if b < 0xE0 then 2 else if b < 0xF0 then 3 else 4
  }

  lemma DivMod64(x: nat)
    ensures x == (x / 64) * 64 + x % 64
    ensures x / 4096 == (x / 64) / 64
    ensures x / 262144 == (x / 4096) / 64
  {
  }

  /** Decoding the UTF-8 encoding of a character gives the character back. */
  lemma Utf8RoundTrip(c: char)
    ensures Utf8Value(Utf8(c)) == Some(c)
    ensures SequenceLength(Utf8(c)[0]) == |Utf8(c)|
  {
    var v := c as int;
    DivMod64(v);
    DivMod64(v / 64);
    DivMod64(v / 4096);
    var bytes := Utf8(c);
    if v < 0x80 {
    } else if v < 0x800 {
      assert (bytes[0] - 0xC0) * 64 + (bytes[1] - 0x80) == v;
    } else if v < 0x10000 {
      assert ((bytes[0] - 0xE0) * 64 + (bytes[1] - 0x80)) * 64 + (bytes[2] - 0x80) == v;
    } else {
      assert (((bytes[0] - 0xF0) * 64 + (bytes[1] - 0x80)) * 64 + (bytes[2] - 0x80)) * 64 + (bytes[3] - 0x80) == v;
    }
  }

  // ---------------------------------------------------------------------------
  // Percent-encoding

  /** An upper-case hexadecimal digit. */
  function HexChar(d: nat): (c: char)
    requires d < 16
    ensures IsHexDigit(c)
  {
    if d < 10 then ('0' as int + d) as char else ('A' as int + d - 10) as char
  }

  /** The value of a hexadecimal digit of either case. */
  function HexValue(c: char): (r: Option<nat>)
    ensures r.Some? <==> IsHexDigit(c)
    ensures r.Some? ==> r.value < 16
  {
    if '0' <= c <= '9' then Some(c as int - '0' as int)
    else if 'A' <= c <= 'F' then Some(c as int - 'A' as int + 10)
    else if 'a' <= c <= 'f' then Some(c as int - 'a' as int + 10)
    else None
  }

  lemma HexRoundTrip(d: nat)
    requires d < 16
    ensures HexValue(HexChar(d)) == Some(d)
  {
  }

  /** `%HH` for one byte. */
  function PercentByte(b: nat): (r: string)
    requires b < 256
    ensures |r| == 3 && r[0] == '%'
  {
    ['%', HexChar(b / 16), HexChar(b % 16)]
  }

  function PercentBytes(bytes: seq<nat>): (r: string)
    requires forall i :: 0 <= i < |bytes| ==> bytes[i] < 256
    ensures |r| == 3 * |bytes|
  {
    if |bytes| == 0 then "" else PercentByte(bytes[0]) + PercentBytes(bytes[1..])
  }

  /** The byte a `%HH` triple at the front of `s` stands for. */
  function ByteAt(s: string): Option<nat> {
    if |s| >= 3 && s[0] == '%' && HexValue(s[1]).Some? && HexValue(s[2]).Some? then
      Some(HexValue(s[1]).value * 16 + HexValue(s[2]).value)
    else None
  }

  lemma ByteAtPercentByte(b: nat, rest: string)
    requires b < 256
    ensures ByteAt(PercentByte(b) + rest) == Some(b)
    ensures (PercentByte(b) + rest)[3..] == rest
  {
    HexRoundTrip(b / 16);
    HexRoundTrip(b % 16);
  }

  /** The first `n` percent-encoded bytes at the front of `s`. */
  function BytesAt(s: string, n: nat): Option<seq<nat>>
    decreases n
  {
    if n == 0 then Some([])
    else match ByteAt(s)
      case None => None
      case Some(b) =>
        match BytesAt(s[3..], n - 1)
        case None => None
        case Some(bs) => Some([b] + bs)
  }

  lemma {:induction false} BytesAtPercentBytes(bytes: seq<nat>, rest: string)
    requires forall i :: 0 <= i < |bytes| ==> bytes[i] < 256
    ensures BytesAt(PercentBytes(bytes) + rest, |bytes|) == Some(bytes)
    ensures |PercentBytes(bytes) + rest| >= 3 * |bytes|
    decreases |bytes|
  {
    if |bytes| > 0 {
      var tail := PercentBytes(bytes[1..]) + rest;
      assert PercentBytes(bytes) + rest == PercentByte(bytes[0]) + tail;
      ByteAtPercentByte(bytes[0], tail);
      BytesAtPercentBytes(bytes[1..], rest);
      assert [bytes[0]] + bytes[1..] == bytes;
    }
  }

  /** One character at the front of an encoded string, and how many
      characters of the encoding it took. */
  function DecodeOne(s: string): (r: Option<(char, nat)>)
    requires |s| > 0
    ensures r.Some? ==> 1 <= r.value.1 <= |s|
  {
    if s[0] == '+' then Some((' ', 1))
    else if s[0] != '%' then Some((s[0], 1))
    else match ByteAt(s)
      case None => None
      case Some(lead) =>
        var n := SequenceLength(lead);
        if |s| < 3 * n then None
        else match BytesAt(s, n)
          case None => None
          case Some(bytes) =>
            match Utf8Value(bytes)
            case None => None
            case Some(c) => Some((c, 3 * n))
  }

  /** The inverse of `Encode`: `+` is a space, `%HH..` a UTF-8 sequence, any
      other character itself; a malformed escape is an error. */
  function Decode(s: string): Option<string>
    decreases |s|
  {
    if |s| == 0 then Some("")
    else match DecodeOne(s)
      case None => None
      case Some((c, n)) =>
        match Decode(s[n..])
        case None => None
        case Some(t) => Some([c] + t)
  }

  // ---------------------------------------------------------------------------
  // Encoding

  /** How the serializer writes one character. */
  function EncodeChar(c: char): (r: string)
    ensures |r| >= 1
    ensures forall i :: 0 <= i < |r| ==> IsEncodedChar(r[i])
  {
    if IsUnreserved(c) then [c]
    else if c == ' ' then "+"
    else
      var r := PercentBytes(Utf8(c));
      assert forall i :: 0 <= i < |r| ==> IsEncodedChar(r[i]) by {
        PercentBytesChars(Utf8(c));
      }
      r
  }

  lemma {:induction false} PercentBytesChars(bytes: seq<nat>)
    requires forall i :: 0 <= i < |bytes| ==> bytes[i] < 256
    ensures forall i :: 0 <= i < |PercentBytes(bytes)| ==> IsEncodedChar(PercentBytes(bytes)[i])
    decreases |bytes|
  {
    if |bytes| > 0 {
      PercentBytesChars(bytes[1..]);
    }
  }

  /** The serialization of one name or value. */
  function Encode(s: string): (r: string)
    ensures forall i :: 0 <= i < |r| ==> IsEncodedChar(r[i])
    ensures |s| > 0 <==> |r| > 0
    decreases |s|
  {
    if |s| == 0 then "" else EncodeChar(s[0]) + Encode(s[1..])
  }

  /** Decoding one encoded character gives it back and consumes exactly its encoding. */
  lemma DecodeOneEncodeChar(c: char, rest: string)
    ensures DecodeOne(EncodeChar(c) + rest) == Some((c, |EncodeChar(c)|))
  {
    var s := EncodeChar(c) + rest;
    if !IsUnreserved(c) && c != ' ' {
      var bytes := Utf8(c);
      Utf8RoundTrip(c);
      assert PercentBytes(bytes) == PercentByte(bytes[0]) + PercentBytes(bytes[1..]);
      ByteAtPercentByte(bytes[0], PercentBytes(bytes[1..]) + rest);
      assert s == PercentByte(bytes[0]) + (PercentBytes(bytes[1..]) + rest);
      BytesAtPercentBytes(bytes, rest);
    }
  }

  /** Decoding undoes encoding, for every string. */
  lemma {:induction false} DecodeEncode(s: string)
    ensures Decode(Encode(s)) == Some(s)
    decreases |s|
  {
    if |s| > 0 {
      var e := Encode(s);
      DecodeOneEncodeChar(s[0], Encode(s[1..]));
      assert e[|EncodeChar(s[0])|..] == Encode(s[1..]);
      DecodeEncode(s[1..]);
      assert [s[0]] + s[1..] == s;
    }
  }

  // ---------------------------------------------------------------------------
  // Queries

  /** One `name=value` entry of a query. */
  datatype Pair = Pair(name: string, value: string)

  function SerializePair(p: Pair): string {
    Encode(p.name) + "=" + Encode(p.value)
  }

  function SerializedPairs(ps: seq<Pair>): (parts: seq<string>)
    ensures |parts| == |ps|
    ensures forall i :: 0 <= i < |ps| ==> parts[i] == SerializePair(ps[i])
  {
    if |ps| == 0 then [] else [SerializePair(ps[0])] + SerializedPairs(ps[1..])
  }

  /** `URLSearchParams.prototype.toString`: the encoded entries joined by `&`. */
  function Serialize(ps: seq<Pair>): (q: string)
    ensures |ps| == 0 <==> q == ""
  {
    var q := Join(SerializedPairs(ps), "&");
    assert |ps| > 0 ==> q != "" by {
      if |ps| > 0 { JoinNonEmpty(SerializedPairs(ps), "&"); }
    }
    q
  }

  lemma {:induction false} JoinNonEmpty(parts: seq<string>, sep: string)
    requires |parts| >= 1 && |parts[0]| >= 1
    ensures |Join(parts, sep)| >= 1
  {
  }

  /** Parses one entry; an entry without `=` is a name with an empty value. */
  function ParsePair(s: string): Option<Pair> {
    var (rawName, rawValue) := match IndexOf(s, '=')
      case None => (s, "")
      case Some(i) => (s[..i], s[i + 1..]);
    match (Decode(rawName), Decode(rawValue))
    case (Some(n), Some(v)) => Some(Pair(n, v))
    case _ => None
  }

  function ParsePairs(parts: seq<string>): Option<seq<Pair>>
    decreases |parts|
  {
    if |parts| == 0 then Some([])
    else match (ParsePair(parts[0]), ParsePairs(parts[1..]))
      case (Some(p), Some(ps)) => Some([p] + ps)
      case _ => None
  }

  /** Reads a serialized query back into its entries. */
  function Parse(q: string): Option<seq<Pair>> {
    if q == "" then Some([]) else ParsePairs(Split(q, '&'))
  }

  /** An encoded component holds no character outside the encoded set. */
  lemma EncodedAvoids(c: char, s: string)
    requires !IsEncodedChar(c)
    ensures c !in Encode(s)
  {
    var r := Encode(s);
    assert forall i :: 0 <= i < |r| ==> IsEncodedChar(r[i]);
  }

  lemma ParseSerializePair(p: Pair)
    ensures ParsePair(SerializePair(p)) == Some(p)
  {
    EncodedAvoids('=', p.name);
    FirstOccurrence(Encode(p.name), '=', Encode(p.value));
    DecodeEncode(p.name);
    DecodeEncode(p.value);
  }

  lemma {:induction false} ParsePairsSerialized(ps: seq<Pair>)
    ensures ParsePairs(SerializedPairs(ps)) == Some(ps)
    decreases |ps|
  {
    if |ps| > 0 {
      ParseSerializePair(ps[0]);
      ParsePairsSerialized(ps[1..]);
      assert SerializedPairs(ps)[1..] == SerializedPairs(ps[1..]);
      assert [ps[0]] + ps[1..] == ps;
    }
  }

  /** No serialized entry contains the `&` that separates entries. */
  lemma NoAmpersandInEntry(p: Pair)
    ensures '&' !in SerializePair(p)
  {
    EncodedAvoids('&', p.name);
    EncodedAvoids('&', p.value);
  }

  /** Parsing a serialized query gives back exactly its entries, in order. */
  lemma ParseSerialize(ps: seq<Pair>)
    ensures Parse(Serialize(ps)) == Some(ps)
  {
    if |ps| > 0 {
      var parts := SerializedPairs(ps);
      forall i | 0 <= i < |parts|
        ensures '&' !in parts[i]
      {
        NoAmpersandInEntry(ps[i]);
      }
      SplitJoin(parts, '&');
      ParsePairsSerialized(ps);
    }
  }
}

=== FILE: http.dfy ===
/** What the route handlers need of HTTP: status codes and `response.ok`. */
module Http {

  /** A status a `fetch` response can carry. */
  type HttpStatus = s: int | 200 <= s <= 599 witness 200

  /** `response.ok`: the status is in the 2xx range. */
  predicate IsOk(status: HttpStatus) {
    200 <= status <= 299
  }
}

=== FILE: json.dfy ===
/** JSON values as `JSON.parse` produces them, with the two JavaScript
    operations the handlers apply to them: property access and truthiness. */
module JsonValues {
  import opened Wrappers

  datatype Json =
    | JNull
    | JBool(b: bool)
    | JNumber(n: real)
    | JString(s: string)
    | JArray(items: seq<Json>)
    | JObject(fields: map<string, Json>)

  /** `value.name`: `None` is `undefined`; reading a property of `null`
      throws a `TypeError` (`Err`). Non-object values have none of the
      properties the handlers read. */
  function Member(value: Json, name: string): (r: Result<Option<Json>, string>)
    ensures r.Err? <==> value.JNull?
    ensures r.Ok? && r.value.Some? <==> value.JObject? && name in value.fields
    ensures r.Ok? && r.value.Some? ==> r.value.value == value.fields[name]
  {
    match value
    case JNull => Err("TypeError")
    case JObject(fields) => if name in fields then Ok(Some(fields[name])) else Ok(None)
    case _ => Ok(None)
  }

  /** JavaScript truthiness; `undefined` is falsy. */
  predicate Truthy(v: Option<Json>) {
    match v
    case None => false
    case Some(JNull) => false
    case Some(JBool(b)) => b
    case Some(JNumber(n)) => n != 0.0
    case Some(JString(s)) => s != ""
    case Some(_) => true
  }

  /** `a || b`: the first operand when truthy, the second otherwise. */
  function Or(a: Option<Json>, b: Option<Json>): (r: Option<Json>)
    ensures Truthy(r) <==> Truthy(a) || Truthy(b)
    ensures Truthy(a) ==> r == a
    ensures !Truthy(a) ==> r == b
  {
    if Truthy(a) then a else b
  }
}

=== FILE: phone_system.dfy ===
/** The phone-system configuration schema and its default configuration
    (src/lib/schemas/phone-system.ts). The schema is modelled as the list of
    issues a validation reports; zod's URL check is a parameter. */
module PhoneSystem {
  import opened Wrappers

  datatype BusinessHours = BusinessHours(opening: string, closing: string)

  datatype CompanyInfo = CompanyInfo(name: string, phoneNumber: string, businessHours: BusinessHours)

  datatype VoicePrompts = VoicePrompts(welcomeMessage: string, afterHoursMessage: string, tourInformation: string)

  datatype CallRouting = CallRouting(bookingNumber: string, emergencyContact: string, voicemailGreeting: string)

  datatype KnowledgeBase = KnowledgeBase(ragServiceUrl: Option<string>, companyInfo: string)

  datatype PhoneSystemConfig = PhoneSystemConfig(
    companyInfo: CompanyInfo,
    voicePrompts: VoicePrompts,
    callRouting: CallRouting,
    knowledgeBase: KnowledgeBase)

  /** A checked field, named by its position in the schema's declaration order. */
  type Field = k: nat | k < 12

  const Name: Field := 0
  const PhoneNumber: Field := 1
  const Opening: Field := 2
  const Closing: Field := 3
  const WelcomeMessage: Field := 4
  const AfterHoursMessage: Field := 5
  const TourInformation: Field := 6
  const BookingNumber: Field := 7
  const EmergencyContact: Field := 8
  const VoicemailGreeting: Field := 9
  const RagServiceUrl: Field := 10
  const KnowledgeCompanyInfo: Field := 11

  const PhoneMessage: string := "Please enter a valid phone number"

  /** The message the schema attaches to a field's check. */
  function Message(f: Field): string {
    if f == Name then "Company name must be at least 2 characters"
    else if f == PhoneNumber then PhoneMessage
    else if f == Opening then "Please select opening time"
    else if f == Closing then "Please select closing time"
    else if f == WelcomeMessage then "Welcome message must be at least 10 characters"
    else if f == AfterHoursMessage then "After hours message must be at least 10 characters"
    else if f == TourInformation then "Tour information must be at least 10 characters"
    else if f == BookingNumber then PhoneMessage
    else if f == EmergencyContact then PhoneMessage
    else if f == VoicemailGreeting then "Voicemail greeting must be at least 10 characters"
    else if f == RagServiceUrl then "Please enter a valid URL"
    else "Company information must be at least 10 characters"
  }

  /** The UTF-16 code units of one character: two for characters outside
      the Basic Multilingual Plane. */
  function CodeUnits(c: char): nat {
    if c as int >= 0x1_0000 then 2 else 1
  }

  /** `s.length` in JavaScript, which counts UTF-16 code units. */
  function Utf16Length(s: string): (n: nat)
    ensures |s| <= n <= 2 * |s|
  {
    if |s| == 0 then 0 else Utf16Length(s[..|s| - 1]) + CodeUnits(s[|s| - 1])
  }

  /** A string of Basic Multilingual Plane characters has one code unit per
      character, and a string of characters outside it has two per character. */
  lemma {:induction false} Utf16LengthCounts(s: string)
    ensures (forall i :: 0 <= i < |s| ==> s[i] as int < 0x1_0000) ==> Utf16Length(s) == |s|
    ensures (forall i :: 0 <= i < |s| ==> s[i] as int >= 0x1_0000) ==> Utf16Length(s) == 2 * |s|
  {
    if |s| > 0 {
      var p := s[..|s| - 1];
      assert forall i :: 0 <= i < |p| ==> p[i] == s[i];
      Utf16LengthCounts(p);
    }
  }

  /** `z.string().min(n)`. */
  predicate MinLength(s: string, n: nat) {
    Utf16Length(s) >= n
  }

  /** Whether one field passes its check; `isUrl` stands for zod's `url()`
      test, and an absent URL passes because the field is optional. */
  predicate FieldValid(c: PhoneSystemConfig, isUrl: string -> bool, f: Field) {
    if f == Name then MinLength(c.companyInfo.name, 2)
    else if f == PhoneNumber then MinLength(c.companyInfo.phoneNumber, 10)
    else if f == Opening then MinLength(c.companyInfo.businessHours.opening, 1)
    else if f == Closing then MinLength(c.companyInfo.businessHours.closing, 1)
    else if f == WelcomeMessage then MinLength(c.voicePrompts.welcomeMessage, 10)
    else if f == AfterHoursMessage then MinLength(c.voicePrompts.afterHoursMessage, 10)
    else if f == TourInformation then MinLength(c.voicePrompts.tourInformation, 10)
    else if f == BookingNumber then MinLength(c.callRouting.bookingNumber, 10)
    else if f == EmergencyContact then MinLength(c.callRouting.emergencyContact, 10)
    else if f == VoicemailGreeting then MinLength(c.callRouting.voicemailGreeting, 10)
    else if f == RagServiceUrl then c.knowledgeBase.ragServiceUrl.None? || isUrl(c.knowledgeBase.ragServiceUrl.value)
    else MinLength(c.knowledgeBase.companyInfo, 10)
  }

  /** A configuration the schema accepts: every field passes. */
  predicate IsValid(c: PhoneSystemConfig, isUrl: string -> bool) {
    forall f: Field :: FieldValid(c, isUrl, f)
  }

  /** One reported problem. */
  datatype Issue = Issue(field: Field, message: string)

  /** The failing fields from position `k` of the schema on, in schema
      order, for a field check `passes`. */
  function FailingFrom(passes: Field -> bool, k: nat): (fields: seq<Field>)
    ensures forall i :: 0 <= i < |fields| ==> k <= fields[i] && !passes(fields[i])
    decreases 12 - k
  {
    if k >= 12 then []
    else
      var rest := FailingFrom(passes, k + 1);
      if passes(k) then rest
      else
        var fields := [k as Field] + rest;
        assert forall i :: 0 < i < |fields| ==> fields[i] == rest[i - 1];
        fields
  }

  /** Fields listed in strictly increasing schema order. */
  predicate InSchemaOrder(fields: seq<Field>) {
    forall i, j :: 0 <= i < j < |fields| ==> fields[i] < fields[j]
  }

  /** The failing fields come in schema order. */
  lemma {:induction false} FailingFromOrdered(passes: Field -> bool, k: nat)
    ensures InSchemaOrder(FailingFrom(passes, k))
    decreases 12 - k
  {
    if k < 12 {
      FailingFromOrdered(passes, k + 1);
      var rest := FailingFrom(passes, k + 1);
      if !passes(k) {
        var fields := FailingFrom(passes, k);
        assert fields == [k as Field] + rest;
        assert forall i :: 0 < i < |fields| ==> fields[i] == rest[i - 1] && k < fields[i];
      }
    }
  }

  /** A failing field heads the failing fields from its own position. */
  lemma FailingHere(passes: Field -> bool, f: Field)
    requires !passes(f)
    ensures |FailingFrom(passes, f)| > 0 && FailingFrom(passes, f)[0] == f
  {
  }

  /** A passing field at position `k` is skipped. */
  lemma PassingFieldSkipped(passes: Field -> bool, k: nat)
    requires k < 12 && passes(k)
    ensures FailingFrom(passes, k) == FailingFrom(passes, k + 1)
  {
  }

  /** A failing field at position `k` comes first from `k` on. */
  lemma FailingFieldReported(passes: Field -> bool, k: nat)
    requires k < 12 && !passes(k)
    ensures FailingFrom(passes, k) == [k as Field] + FailingFrom(passes, k + 1)
  {
  }

  /** Where a failing field from position `k` on sits in the list. */
  lemma {:induction false} FailingIndex(passes: Field -> bool, k: nat, f: Field) returns (i: nat)
    requires k <= f && !passes(f)
    ensures i < |FailingFrom(passes, k)| && FailingFrom(passes, k)[i] == f
    decreases 12 - k
  {
    if k == f {
      FailingHere(passes, f);
      i := 0;
    } else {
      var j := FailingIndex(passes, k + 1, f);
      var rest := FailingFrom(passes, k + 1);
      if passes(k) {
        PassingFieldSkipped(passes, k);
        i := j;
      } else {
        FailingFieldReported(passes, k);
        var fields := [k as Field] + rest;
        assert fields[j + 1] == rest[j];
        i := j + 1;
      }
    }
  }

  /** The fields listed are exactly the failing ones. */
  lemma FailingExactly(passes: Field -> bool)
    ensures forall f: Field :: f in FailingFrom(passes, 0) <==> !passes(f)
  {
    forall f: Field | !passes(f)
      ensures f in FailingFrom(passes, 0)
    {
      var i := FailingIndex(passes, 0, f);
    }
  }

  /** The schema's field checks for one configuration. */
  function Checks(c: PhoneSystemConfig, isUrl: string -> bool): (passes: Field -> bool)
    ensures forall f :: passes(f) == FieldValid(c, isUrl, f)
  {
    (f: Field) => FieldValid(c, isUrl, f)
  }

  /** One issue per field, carrying the field's message. */
  function IssuesOf(fields: seq<Field>): (issues: seq<Issue>)
    ensures |issues| == |fields|
    ensures forall i :: 0 <= i < |fields| ==> issues[i] == Issue(fields[i], Message(fields[i]))
  {
    seq(|fields|, i requires 0 <= i < |fields| => Issue(fields[i], Message(fields[i])))
  }

  /** A field has an issue exactly when it is listed. */
  lemma IssuesOfFields(fields: seq<Field>)
    ensures forall f :: (exists i :: 0 <= i < |IssuesOf(fields)| && IssuesOf(fields)[i].field == f) <==> f in fields
  {
    var issues := IssuesOf(fields);
    forall f | f in fields
      ensures exists i :: 0 <= i < |issues| && issues[i].field == f
    {
      var i :| 0 <= i < |fields| && fields[i] == f;
      assert issues[i].field == f;
    }
  }

  /** Issues of fields in schema order come in schema order. */
  lemma IssuesOfOrdered(fields: seq<Field>)
    requires InSchemaOrder(fields)
    ensures var issues := IssuesOf(fields);
      forall i, j :: 0 <= i < j < |issues| ==> issues[i].field < issues[j].field
  {
    var issues := IssuesOf(fields);
    assert forall i :: 0 <= i < |issues| ==> issues[i].field == fields[i];
  }

  /** The issues of the failing fields: none exactly when every field
      passes, one for each failing field, in schema order. */
  lemma FailingIssues(passes: Field -> bool)
    ensures var issues := IssuesOf(FailingFrom(passes, 0));
      && (issues == [] <==> forall f: Field :: passes(f))
      && (forall f :: (exists i :: 0 <= i < |issues| && issues[i].field == f) <==> !passes(f))
      && (forall i, j :: 0 <= i < j < |issues| ==> issues[i].field < issues[j].field)
  {
    var fields := FailingFrom(passes, 0);
    FailingExactly(passes);
    FailingFromOrdered(passes, 0);
    IssuesOfFields(fields);
    IssuesOfOrdered(fields);
    if fields != [] {
      assert !passes(fields[0]);
    }
  }

  /** `phoneSystemSchema.safeParse(c)`: the issues of every failing field,
      in schema order; the configuration is accepted when there are none. */
  function Validate(c: PhoneSystemConfig, isUrl: string -> bool): (issues: seq<Issue>)
    ensures issues == [] <==> IsValid(c, isUrl)
    ensures forall f :: (exists i :: 0 <= i < |issues| && issues[i].field == f) <==> !FieldValid(c, isUrl, f)
    ensures forall i :: 0 <= i < |issues| ==> issues[i].message == Message(issues[i].field)
    ensures forall i, j :: 0 <= i < j < |issues| ==> issues[i].field < issues[j].field
  {
    var passes := Checks(c, isUrl);
    FailingIssues(passes);
    IssuesOf(FailingFrom(passes, 0))
  }

  /** The configuration the settings form starts from. */
  const DefaultRagServiceUrl: string := "https://rag-livid.vercel.app"

  const DefaultPhoneConfig: PhoneSystemConfig := PhoneSystemConfig(
    CompanyInfo("Dallas Boat Tours", "", BusinessHours("09:00", "17:00")),
    VoicePrompts(
      "Thank you for calling Dallas Boat Tours. Our AI assistant is here to help you with tour information and bookings.",
      "We're currently closed. Our regular business hours are 9 AM to 5 PM Central Time. Please leave a message or call back during business hours.",
      "We offer scenic lake tours daily. Our most popular tour is the 2-hour sunset cruise on Lake Ray Hubbard."),
    CallRouting(
      "",
      "",
      "You've reached the voicemail for Dallas Boat Tours. Please leave your name, number, and a brief message, and we'll get back to you as soon as possible."),
    KnowledgeBase(
      Some(DefaultRagServiceUrl),
      "Dallas Boat Tours offers scenic lake tours and private charters on Lake Ray Hubbard. We specialize in sunset cruises, private events, and corporate outings."))

  /** Every text of the default configuration is long enough except its
      three phone numbers, which are empty; its knowledge-base address is
      checked by `isUrl` alone. */
  lemma DefaultConfigFailsOnlyOnPhoneNumbers(c: PhoneSystemConfig, isUrl: string -> bool)
    requires c == DefaultPhoneConfig && isUrl(DefaultRagServiceUrl)
    ensures forall f :: !FieldValid(c, isUrl, f) <==> f == PhoneNumber || f == BookingNumber || f == EmergencyContact
  {
    assert Utf16Length([]) == 0;
    assert |c.companyInfo.name| >= 2;
    assert |c.companyInfo.businessHours.opening| >= 1 && |c.companyInfo.businessHours.closing| >= 1;
    assert |c.voicePrompts.welcomeMessage| >= 10 && |c.voicePrompts.afterHoursMessage| >= 10;
    assert |c.voicePrompts.tourInformation| >= 10 && |c.callRouting.voicemailGreeting| >= 10;
    assert |c.knowledgeBase.companyInfo| >= 10;
  }

  /** Fields that pass between positions `k` and `m` are skipped. */
  lemma {:induction false} PassingFieldsSkipped(passes: Field -> bool, k: nat, m: nat)
    requires k <= m <= 12
    requires forall f :: k <= f < m ==> passes(f)
    ensures FailingFrom(passes, k) == FailingFrom(passes, m)
    decreases m - k
  {
    if k < m {
      PassingFieldSkipped(passes, k);
      PassingFieldsSkipped(passes, k + 1, m);
    }
  }

  /** A check that fails exactly on the three phone numbers lists them, in schema order. */
  lemma PhoneOnlyFailing(passes: Field -> bool)
    requires forall f :: !passes(f) <==> f == PhoneNumber || f == BookingNumber || f == EmergencyContact
    ensures FailingFrom(passes, 0) == [PhoneNumber, BookingNumber, EmergencyContact]
  {
    PassingFieldsSkipped(passes, 9, 12);
    FailingFieldReported(passes, 8);
    FailingFieldReported(passes, 7);
    PassingFieldsSkipped(passes, 2, 7);
    FailingFieldReported(passes, 1);
    PassingFieldsSkipped(passes, 0, 1);
  }

  /** A configuration that fails exactly on its three phone numbers gets
      their three issues, in schema order, each with the phone-number message. */
  lemma PhoneOnlyIssues(c: PhoneSystemConfig, isUrl: string -> bool)
    requires forall f :: !FieldValid(c, isUrl, f) <==> f == PhoneNumber || f == BookingNumber || f == EmergencyContact
    ensures Validate(c, isUrl) == [Issue(PhoneNumber, PhoneMessage), Issue(BookingNumber, PhoneMessage), Issue(EmergencyContact, PhoneMessage)]
  {
    PhoneOnlyFailing(Checks(c, isUrl));
    var issues := IssuesOf([PhoneNumber, BookingNumber, EmergencyContact]);
    assert issues[0] == Issue(PhoneNumber, PhoneMessage);
    assert issues[1] == Issue(BookingNumber, PhoneMessage);
    assert issues[2] == Issue(EmergencyContact, PhoneMessage);
  }

  /** Validating the default configuration reports its three phone numbers. */
  lemma DefaultConfigIssues(c: PhoneSystemConfig, isUrl: string -> bool)
    requires c == DefaultPhoneConfig && isUrl(DefaultRagServiceUrl)
    ensures Validate(c, isUrl) == [Issue(PhoneNumber, PhoneMessage), Issue(BookingNumber, PhoneMessage), Issue(EmergencyContact, PhoneMessage)]
  {
    DefaultConfigFailsOnlyOnPhoneNumbers(c, isUrl);
    PhoneOnlyIssues(c, isUrl);
  }
}

=== FILE: proxy_route.dfy ===
/** `POST /api/proxy` (src/app/api/proxy/route.ts): relays a chat message
    and its history to the question-answering backend and hands back the
    backend's answer. The backend call is replaced by its outcome, given as
    a parameter. */
module ProxyRoute {
  import opened Wrappers
  import opened Http
  import opened JsonValues

  /** Where every relayed question goes. */
  const BackendUrl: string := "https://bg-backend-app1.azurewebsites.net/api/v1/query/"

  const MissingMessage: string := "Missing required 'message' field"
  const InvalidBackendResponse: string := "Invalid response from backend"
  const UnreadableResponse: string := "The server returned an unreadable response."
  const CommunicationFailed: string := "Failed to communicate with backend"
  const ConnectionHelp: string := "Unable to connect to the server. Please try again."
  const NoValidResponse: string := "No valid response received."

  /** The `fetch` the handler makes. */
  datatype BackendRequest = BackendRequest(
    url: string,
    httpMethod: string,
    contentType: string,
    accept: string,
    forwardedProto: string,
    body: Json)

  /** How the backend call ended: no response at all, or a response whose
      text parsed as JSON (`Some`) or not (`None`). */
  datatype Backend = Unreachable | Replied(status: HttpStatus, parsed: Option<Json>)

  /** The JSON the handler answers with; both `text` and `reply` go out
      under the key `response`. */
  datatype ProxyBody =
    | MissingField(error: string)
    | Failure(error: string, text: string)
    | Answer(reply: Json)

  /** The handler's answer, and the request it relayed, if any. */
  datatype ProxyOutcome = ProxyOutcome(forwarded: Option<BackendRequest>, status: int, body: ProxyBody)

  /** The answer of the outer `catch`. */
  const Unavailable: ProxyOutcome := ProxyOutcome(None, 500, Failure(CommunicationFailed, ConnectionHelp))

  /** The JSON sent on: the message as `query`, and the history, or `[]`
      when it is missing or falsy. */
  function ForwardedBody(message: Json, history: Option<Json>): (body: Json)
    ensures body.JObject? && "query" in body.fields && "history" in body.fields
    ensures body.fields["query"] == message
    ensures Truthy(history) ==> body.fields["history"] == history.value
    ensures !Truthy(history) ==> body.fields["history"] == JArray([])
  {
    JObject(map["query" := message, "history" := Or(history, Some(JArray([]))).value])
  }

  /** `data.answer || data.response || "No valid response received."` for a
      parsed backend reply; `Err` when `data` is `null`. */
  function SelectAnswer(data: Json): (r: Result<Json, string>)
    ensures r.Err? <==> data.JNull?
    ensures r.Ok? ==> Truthy(Some(r.value))
  {
    match (Member(data, "answer"), Member(data, "response"))
    case (Ok(answer), Ok(response)) => Ok(Or(answer, Or(response, Some(JString(NoValidResponse)))).value)
    case _ => Err("TypeError")
  }

  /** The handler. `request` is `None` when the body is not valid JSON. */
  function ProxyPost(request: Option<Json>, backend: Backend): (out: ProxyOutcome)
    // Only three statuses are ever produced.
    ensures out.status == 200 || out.status == 400 || out.status == 500
    // A message is relayed exactly when the body is an object with a truthy `message`.
    ensures out.forwarded.Some? <==>
              request.Some? && request.value.JObject? && Truthy(Member(request.value, "message").value)
    ensures out.forwarded.Some? ==>
              out.forwarded.value == BackendRequest(BackendUrl, "POST", "application/json", "application/json", "https",
                                       ForwardedBody(request.value.fields["message"], Member(request.value, "history").value))
    // The 400 answers a readable, non-null body without a truthy message, and nothing else.
    ensures out.status == 400 <==>
              request.Some? && !request.value.JNull? && !Truthy(Member(request.value, "message").value)
    ensures out.status == 400 ==> out.body == MissingField(MissingMessage)
    // Success needs an ok reply that parsed to something other than `null`.
    ensures out.status == 200 <==>
              out.forwarded.Some? && backend.Replied? && IsOk(backend.status)
              && backend.parsed.Some? && !backend.parsed.value.JNull?
    ensures out.status == 200 ==> out.body == Answer(SelectAnswer(backend.parsed.value).value)
    // Every 500 is one of two fixed payloads: the unreadable-reply one, or the outer `catch`'s.
    ensures out.status == 500 ==>
              out.body.Failure? && out.body == (if out.body.error == InvalidBackendResponse then Failure(InvalidBackendResponse, UnreadableResponse)
                           else Failure(CommunicationFailed, ConnectionHelp))
    // A non-ok status throws, and so does an unreachable backend or a `null` reply: the `catch` answers.
    ensures out.forwarded.Some? && (backend.Unreachable? || !IsOk(backend.status)
              || (backend.parsed.Some? && backend.parsed.value.JNull?)) ==>
              out == ProxyOutcome(out.forwarded, 500, Failure(CommunicationFailed, ConnectionHelp))
    // A body that is not JSON, or is `null`, throws before anything is relayed.
    ensures (request.None? || request.value.JNull?) ==> out == Unavailable
    ensures out.status == 500 && out.body.error == InvalidBackendResponse <==>
              out.forwarded.Some? && backend.Replied? && IsOk(backend.status) && backend.parsed.None?
  {
    match request
    case None => Unavailable
    case Some(body) =>
      match Member(body, "message")
      case Err(_) => Unavailable
      case Ok(message) =>
        if !Truthy(message) then ProxyOutcome(None, 400, MissingField(MissingMessage))
        else
          var relayed := BackendRequest(BackendUrl, "POST", "application/json", "application/json", "https",
                                        ForwardedBody(message.value, Member(body, "history").value));
          var failed := ProxyOutcome(Some(relayed), 500, Failure(CommunicationFailed, ConnectionHelp));
          match backend
          case Unreachable => failed
          case Replied(status, parsed) =>
            if !IsOk(status) then failed
            else match parsed
              case None => ProxyOutcome(Some(relayed), 500, Failure(InvalidBackendResponse, UnreadableResponse))
              case Some(data) =>
                match SelectAnswer(data)
                case Err(_) => failed
                case Ok(answer) => ProxyOutcome(Some(relayed), 200, Answer(answer))
  }

  /** The backend's `answer` wins when truthy, then its `response`, then the
      fixed fallback text. */
  lemma AnswerPreference(fields: map<string, Json>)
    ensures var r := SelectAnswer(JObject(fields)).value;
      if "answer" in fields && Truthy(Some(fields["answer"])) then r == fields["answer"]
      else if "response" in fields && Truthy(Some(fields["response"])) then r == fields["response"]
      else r == JString(NoValidResponse)
  {
  }

  /** A message is relayed unchanged, whatever else the body holds. */
  lemma MessageRelayedVerbatim(fields: map<string, Json>, backend: Backend)
    requires "message" in fields && Truthy(Some(fields["message"]))
    ensures var out := ProxyPost(Some(JObject(fields)), backend);
      out.forwarded.Some? && out.forwarded.value.body.fields["query"] == fields["message"]
  {
  }
}

=== FILE: stream_route.dfy ===
/** `POST /api/speech-to-text/stream` (src/app/api/speech-to-text/stream/route.ts):
    forwards one recorded audio chunk to Deepgram with fixed real-time
    options and answers with the flattened transcript. The network call is
    replaced by its outcome, given as a parameter. */
module StreamRoute {
  import opened Wrappers
  import opened FormUrlEncoding
  import opened Deepgram
  import opened Http

  /** A multipart form field: text, or an uploaded file's bytes. */
  datatype FormValue = TextValue(text: string) | FileValue(bytes: seq<bv8>)

  /** The submitted form, fields in submission order. */
  type Form = seq<(string, FormValue)>

  /** `formData.get(name)`: the value of the first field of that name, or `null`. */
  function Get(form: Form, name: string): (r: Option<FormValue>)
    ensures r.None? <==> forall i :: 0 <= i < |form| ==> form[i].0 != name
    ensures r.Some? ==> exists i :: 0 <= i < |form| && form[i] == (name, r.value)
                          && forall j :: 0 <= j < i ==> form[j].0 != name
  {
    if |form| == 0 then None
    else if form[0].0 == name then Some(form[0].1)
    else
      var r := Get(form[1..], name);
      assert r.Some? ==> exists i :: 0 <= i < |form[1..]| && form[1..][i] == (name, r.value)
                          && forall j :: 0 <= j < i ==> form[1..][j].0 != name;
      assert forall i :: 0 < i < |form| ==> form[i] == form[1..][i - 1];
      r
  }

  /** JavaScript truthiness of a form value: `null` and `""` are falsy. */
  predicate Truthy(v: Option<FormValue>) {
    v.Some? && v.value != TextValue("")
  }

  /** How the call to Deepgram ended: the request failed outright, or a
      response arrived whose body parsed as JSON (`Some`) or not (`None`). */
  datatype Upstream = NetworkFailure | Responded(status: HttpStatus, body: Option<ListenBody>)

  datatype StreamBody =
    | ErrorBody(error: string, status: int)
    | TranscriptBody(transcript: FormattedTranscript, isComplete: bool)

  /** The route's answer, and the request it sent to Deepgram, if any. */
  datatype Outcome = Outcome(sent: Option<DeepgramRequest>, status: int, body: StreamBody)

  const MissingAudio: string := "No audio chunk provided"
  const UpstreamFailed: string := "Failed to transcribe audio chunk"
  const InternalError: string := "Internal server error"

  /** The default language when the form carries none. */
  const DefaultLanguage: string := "en-US"

  /** `String(value)` of a form value, as `URLSearchParams.append` converts it. */
  function AsText(v: FormValue): string {
    match v
    case TextValue(t) => t
    case FileValue(_) => "[object File]"
  }

  /** `(formData.get("language") as string) || "en-US"`. */
  function ChunkLanguage(form: Form): (lang: string)
    ensures lang != ""
    ensures Truthy(Get(form, "language")) ==> lang == AsText(Get(form, "language").value)
    ensures !Truthy(Get(form, "language")) ==> lang == DefaultLanguage
  {
    var v := Get(form, "language");
    if Truthy(v) then AsText(v.value) else DefaultLanguage
  }

  /** The options the route always uses: the chunk's language, the `nova`
      model, punctuation and smart formatting on, filler words off. */
  function StreamOptions(language: string): TranscriptionOptions {
    TranscriptionOptions(Some(language), Some("nova"), Some(true), None, None, Some(true), Some(false), None)
  }

  /** The network call fails, or an ok response's body cannot be read as
      JSON or cannot be formatted: each makes the handler throw. */
  predicate UpstreamThrows(upstream: Upstream) {
    || upstream.NetworkFailure?
    || (upstream.Responded? && IsOk(upstream.status) && (upstream.body.None? || Throws(upstream.body.value)))
  }

  function Internal(sent: Option<DeepgramRequest>): Outcome {
    Outcome(sent, 500, ErrorBody(InternalError, 500))
  }

  /** The route handler. `form` is `None` when the body is not a readable
      form; `apiKey` is `DEEPGRAM_API_KEY`. */
  function StreamPost(form: Option<Form>, apiKey: Option<string>, upstream: Upstream): (out: Outcome)
    // Without a readable form nothing is sent and the answer is a 500.
    ensures form.None? ==> out == Internal(None)
    // The 400 is given exactly when the audio field is missing or empty.
    ensures out.body == ErrorBody(MissingAudio, 400) <==> form.Some? && !Truthy(Get(form.value, "audio"))
    ensures form.Some? && !Truthy(Get(form.value, "audio")) ==> out == Outcome(None, 400, ErrorBody(MissingAudio, 400))
    // A text audio field has no `arrayBuffer`: the throw becomes the generic 500.
    ensures form.Some? && Truthy(Get(form.value, "audio")) && Get(form.value, "audio").value.TextValue? ==> out == Internal(None)
    // A request goes out exactly when the audio field is a file, carrying its bytes.
    ensures out.sent.Some? <==> form.Some? && Get(form.value, "audio").Some? && Get(form.value, "audio").value.FileValue?
    ensures out.sent.Some? ==> out.sent.value == CreateDeepgramRequest(Get(form.value, "audio").value.bytes,
                                                  StreamOptions(ChunkLanguage(form.value)), apiKey)
    // A failed Deepgram status is passed through.
    ensures out.sent.Some? && upstream.Responded? && !IsOk(upstream.status) ==>
              out == Outcome(out.sent, upstream.status, ErrorBody(UpstreamFailed, upstream.status))
    // Success needs an ok response with a body the formatter accepts.
    ensures out.body.TranscriptBody? <==>
              out.sent.Some? && upstream.Responded? && IsOk(upstream.status) && upstream.body.Some?
              && !Throws(upstream.body.value)
    ensures out.body.TranscriptBody? ==>
              out.status == 200
              && Ok(out.body.transcript) == FormatDeepgramResponse(upstream.body.value)
              && (out.body.isComplete <==> Get(form.value, "isLastChunk") == Some(TextValue("true")))
    // A failed request, an unparsable body or a throwing formatter ends in the generic 500.
    ensures out.sent.Some? && UpstreamThrows(upstream) ==> out == Internal(out.sent)
  {
    match form
    case None => Internal(None)
    case Some(fields) =>
      var audio := Get(fields, "audio");
      if !Truthy(audio) then Outcome(None, 400, ErrorBody(MissingAudio, 400))
      else match audio.value
        // `arrayBuffer` is not a method of a string field: a `TypeError`.
        case TextValue(_) => Internal(None)
        case FileValue(bytes) =>
          var request := CreateDeepgramRequest(bytes, StreamOptions(ChunkLanguage(fields)), apiKey);
          match upstream
          case NetworkFailure => Internal(Some(request))
          case Responded(status, body) =>
            if !IsOk(status) then Outcome(Some(request), status, ErrorBody(UpstreamFailed, status))
            else match body
              case None => Internal(Some(request))
              case Some(data) =>
                match FormatDeepgramResponse(data)
                case Err(_) => Internal(Some(request))
                case Ok(t) =>
                  Outcome(Some(request), 200, TranscriptBody(t, Get(fields, "isLastChunk") == Some(TextValue("true"))))
  }

  /** The query of every request the route sends is exactly
      `language=…&model=nova&punctuate=true&smart_format=true`: filler words
      are switched off by leaving the parameter out. */
  lemma StreamQueryIsFixed(language: string)
    requires language != ""
    ensures QueryParams(StreamOptions(language))
         == [Param(Language, language), Param(Model, "nova"), Param(Punctuate, "true"), Param(SmartFormat, "true")]
  {
    FlattenEight(Groups(StreamOptions(language)));
  }

  /** The chunk's language reaches Deepgram unchanged, whatever characters it holds. */
  lemma LanguageReachesDeepgram(form: Form, apiKey: Option<string>, upstream: Upstream)
    requires Get(form, "audio").Some? && Get(form, "audio").value.FileValue?
    ensures var out := StreamPost(Some(form), apiKey, upstream);
      var url := out.sent.value.url;
      |url| >= |ListenEndpoint|
      && Parse(url[|ListenEndpoint|..]) == Some(ToPairs(
           [Param(Language, ChunkLanguage(form)), Param(Model, "nova"), Param(Punctuate, "true"), Param(SmartFormat, "true")]))
  {
    StreamQueryIsFixed(ChunkLanguage(form));
  }
}

=== FILE: strings.dfy ===
/** The JavaScript string operations the application relies on, stated over
    `string` (a sequence of characters): `toLowerCase`, `includes`, `replace`
    with a one-character pattern, `indexOf`, `trim`, `join`, `split`, decimal
    rendering of a whole number (`toString`) and `padStart`. */
module Strings {
  import opened Wrappers

  // ---------------------------------------------------------------------------
  // Lower case

  /** `toLowerCase` on one character, restricted to the ASCII letters. */
  function LowerChar(c: char): char {
    if 'A' <= c <= 'Z' then (c as int + 32) as char else c
  }

  predicate IsUpperAscii(c: char) {
    'A' <= c <= 'Z'
  }

  /** `s.toLowerCase()`: every upper-case ASCII letter becomes its lower-case
      partner and every other character is kept. */
  function ToLower(s: string): (r: string)
    ensures |r| == |s|
    ensures forall i :: 0 <= i < |r| ==> !IsUpperAscii(r[i])
    ensures forall i :: 0 <= i < |s| && !IsUpperAscii(s[i]) ==> r[i] == s[i]
    ensures forall i :: 0 <= i < |s| && IsUpperAscii(s[i]) ==> r[i] as int == s[i] as int + 32
  {
    seq(|s|, i requires 0 <= i < |s| => LowerChar(s[i]))
  }

  /** Lower-casing twice is lower-casing once. */
  lemma ToLowerIdempotent(s: string)
    ensures ToLower(ToLower(s)) == ToLower(s)
  {
  }

  // ---------------------------------------------------------------------------
  // Substring search

  /** `v` occurs in `s` starting at offset `k`. */
  ghost predicate OccursAt(s: string, v: string, k: int) {
    0 <= k && k + |v| <= |s| && s[k..k + |v|] == v
  }

  /** `s.includes(v)`. */
  function Includes(s: string, v: string): bool
    decreases |s|
  {
    if |v| <= |s| && s[..|v|] == v then true
    else if |s| == 0 then false
    else Includes(s[1..], v)
  }

  /** `Includes` holds exactly when `v` occurs in `s` at some offset. */
  lemma {:induction false} IncludesIffOccurs(s: string, v: string)
    ensures Includes(s, v) <==> exists k :: OccursAt(s, v, k)
    decreases |s|
  {
    if |v| <= |s| && s[..|v|] == v {
      assert OccursAt(s, v, 0);
    } else if |s| > 0 {
      IncludesIffOccurs(s[1..], v);
      if Includes(s[1..], v) {
        var k :| OccursAt(s[1..], v, k);
        assert s[1..][k..k + |v|] == s[k + 1..k + 1 + |v|];
        assert OccursAt(s, v, k + 1);
      }
      if exists k :: OccursAt(s, v, k) {
        var k :| OccursAt(s, v, k);
        assert s[1..][k - 1..k - 1 + |v|] == s[k..k + |v|];
        assert OccursAt(s[1..], v, k - 1);
      }
    }
  }

  /** `indexOf` for one character: the first position holding `c`, if any. */
  function IndexOf(s: string, c: char): (r: Option<nat>)
    ensures r.Some? ==> r.value < |s| && s[r.value] == c
    ensures r.Some? ==> forall i :: 0 <= i < r.value ==> s[i] != c
    ensures r.None? <==> c !in s
  {
    if |s| == 0 then None
    else if s[0] == c then Some(0)
    else match IndexOf(s[1..], c)
      case None => None
      case Some(i) => Some(i + 1)
  }

  /** `s.replace(" ", replacement)` with a string pattern of one character: only the
      FIRST occurrence of `c` is replaced, and a string without `c` is kept. */
  function ReplaceFirst(s: string, c: char, replacement: string): (r: string)
    ensures c !in s ==> r == s
    ensures c in s ==> exists i :: 0 <= i < |s| && s[i] == c && c !in s[..i] && r == s[..i] + replacement + s[i + 1..]
  {
    match IndexOf(s, c)
    case None => s
    case Some(i) =>
      assert s[i] == c && c !in s[..i];
      s[..i] + replacement + s[i + 1..]
  }

  /** Replacing the first `c` in `a + [c] + b`, where `a` has no `c`, puts
      the replacement between `a` and `b`. */
  lemma ReplaceFirstAfter(a: string, b: string, c: char, replacement: string)
    requires c !in a
    ensures ReplaceFirst(a + [c] + b, c, replacement) == a + replacement + b
  {
    var s := a + [c] + b;
    assert s[|a|] == c;
    assert forall j :: 0 <= j < |a| ==> s[j] == a[j];
    assert IndexOf(s, c) == Some(|a|);
    assert s[..|a|] == a && s[|a| + 1..] == b;
  }

  /** Every string occurs in itself at offset 0. */
  lemma OccursInItself(s: string)
    ensures OccursAt(s, s, 0)
  {
    assert s[0..|s|] == s;
  }

  /** `v` occurs in `p + v + q` right after `p`. */
  lemma OccursAfter(p: string, v: string, q: string)
    ensures OccursAt(p + v + q, v, |p|)
  {
    assert (p + v + q)[|p|..|p| + |v|] == v;
  }

  // ---------------------------------------------------------------------------
  // Trimming

  /** The characters `String.prototype.trim` removes: the ECMAScript
      WhiteSpace (tab, vertical tab, form feed, byte-order mark and the
      Unicode space separators) and LineTerminator characters. */
  predicate IsWhitespace(c: char) {
    || c == '\t' || c == '\U{B}' || c == '\U{C}' || c == ' ' || c == '\U{A0}' || c == '\U{FEFF}'
    || c == '\U{1680}' || ('\U{2000}' <= c <= '\U{200A}') || c == '\U{202F}' || c == '\U{205F}'
    || c == '\U{3000}' || c == '\n' || c == '\r' || c == '\U{2028}' || c == '\U{2029}'
  }

  /** `s.trim()` is empty exactly for these strings. */
  predicate IsBlank(s: string) {
    forall i :: 0 <= i < |s| ==> IsWhitespace(s[i])
  }

  /** Where the text of `s` starts, searching from `i`: every character
      skipped is whitespace, and the one found is not. */
  function TextStart(s: string, i: nat): (a: nat)
    requires i <= |s|
    ensures i <= a <= |s|
    ensures forall k :: i <= k < a ==> IsWhitespace(s[k])
    ensures a < |s| ==> !IsWhitespace(s[a])
    decreases |s| - i
  {
    if i < |s| && IsWhitespace(s[i]) then TextStart(s, i + 1) else i
  }

  /** Where the text of `s` ends, searching down from `j` to `lo`: every
      character skipped is whitespace, and the last one kept is not. */
  function TextEnd(s: string, lo: nat, j: nat): (b: nat)
    requires lo <= j <= |s|
    ensures lo <= b <= j
    ensures forall k :: b <= k < j ==> IsWhitespace(s[k])
    ensures lo < b ==> !IsWhitespace(s[b - 1])
    decreases j
  {
    if lo < j && IsWhitespace(s[j - 1]) then TextEnd(s, lo, j - 1) else j
  }

  /** `r` is `s` with `a` whitespace characters removed in front and only
      whitespace removed behind. */
  ghost predicate TrimmedAt(s: string, r: string, a: int) {
    && 0 <= a && a + |r| <= |s| && r == s[a..a + |r|]
    && (forall i :: 0 <= i < a ==> IsWhitespace(s[i]))
    && (forall i :: a + |r| <= i < |s| ==> IsWhitespace(s[i]))
  }

  /** `s.trim()`: the slice of `s` between its leading and trailing
      whitespace; empty exactly when `s` is blank. */
  function Trim(s: string): (r: string)
    ensures exists a :: TrimmedAt(s, r, a)
    ensures r != [] ==> !IsWhitespace(r[0]) && !IsWhitespace(r[|r| - 1])
    ensures r == [] <==> IsBlank(s)
  {
    var a := TextStart(s, 0);
    var b := TextEnd(s, a, |s|);
    var r := s[a..b];
    assert TrimmedAt(s, r, a);
    if a < b then
      assert r[0] == s[a] && r[|r| - 1] == s[b - 1];
      r
    else
      assert IsBlank(s);
      r
  }

  // ---------------------------------------------------------------------------
  // Joining and splitting

  /** `parts.join(sep)`. */
  function Join(parts: seq<string>, sep: string): string {
    if |parts| == 0 then ""
    else if |parts| == 1 then parts[0]
    else parts[0] + sep + Join(parts[1..], sep)
  }

  /** Joining a concatenation of two non-empty lists puts one separator
      between the two joined halves. */
  lemma {:induction false} JoinAppend(a: seq<string>, b: seq<string>, sep: string)
    requires |a| >= 1 && |b| >= 1
    ensures Join(a + b, sep) == Join(a, sep) + sep + Join(b, sep)
    decreases |a|
  {
    if |a| == 1 {
      assert (a + b)[1..] == b;
    } else {
      JoinAppend(a[1..], b, sep);
      assert (a + b)[1..] == a[1..] + b;
    }
  }

  /** `s.split(sep)` for a one-character separator. */
  function Split(s: string, sep: char): (parts: seq<string>)
    ensures |parts| >= 1
    decreases |s|
  {
    match IndexOf(s, sep)
    case None => [s]
    case Some(i) => [s[..i]] + Split(s[i + 1..], sep)
  }

  /** In `p + [c] + rest` with no `c` in `p`, the first `c` is the one
      after `p`, with `p` before it and `rest` after it. */
  lemma FirstOccurrence(p: string, c: char, rest: string)
    requires c !in p
    ensures var s := p + [c] + rest;
      IndexOf(s, c) == Some(|p|) && s[..|p|] == p && s[|p| + 1..] == rest
  {
    var s := p + [c] + rest;
    assert s[|p|] == c;
    assert s[..|p|] == p;
    assert s[|p| + 1..] == rest;
    assert forall i :: 0 <= i < |p| ==> s[i] == p[i];
  }

  /** The first separator of `p + [sep] + rest` is the one after `p`. */
  lemma SplitAtSeparator(p: string, sep: char, rest: string)
    requires sep !in p
    ensures Split(p + [sep] + rest, sep) == [p] + Split(rest, sep)
  {
    FirstOccurrence(p, sep, rest);
  }

  /** Splitting undoes joining when no part contains the separator. */
  lemma {:induction false} SplitJoin(parts: seq<string>, sep: char)
    requires |parts| >= 1
    requires forall i :: 0 <= i < |parts| ==> sep !in parts[i]
    ensures Split(Join(parts, [sep]), sep) == parts
    decreases |parts|
  {
    if |parts| > 1 {
      assert sep !in parts[0];
      SplitAtSeparator(parts[0], sep, Join(parts[1..], [sep]));
      SplitJoin(parts[1..], sep);
      assert [parts[0]] + parts[1..] == parts;
    }
  }


  // ---------------------------------------------------------------------------
  // Decimal numbers

  predicate IsDigit(c: char) {
    '0' <= c <= '9'
  }

  predicate AllDigits(s: string) {
    forall i :: 0 <= i < |s| ==> IsDigit(s[i])
  }

  function DigitChar(d: nat): (c: char)
    requires d < 10
    ensures IsDigit(c) && c as int - '0' as int == d
  {
    ('0' as int + d) as char
  }

  /** The value of a string of decimal digits, most significant first. */
  function DigitsValue(s: string): nat
    requires AllDigits(s)
  {
    if |s| == 0 then 0 else DigitsValue(s[..|s| - 1]) * 10 + (s[|s| - 1] as int - '0' as int)
  }

  /** `Number(s)` restricted to non-empty strings of decimal digits. */
  function ParseNat(s: string): Option<nat> {
    if |s| > 0 && AllDigits(s) then Some(DigitsValue(s)) else None
  }

  /** `n.toString()`: the decimal digits of `n` without leading zeros. */
  function NatToString(n: nat): (r: string)
    ensures |r| >= 1 && AllDigits(r)
    ensures n < 10 <==> |r| == 1
    ensures n < 100 ==> |r| <= 2
    ensures |r| > 1 ==> r[0] != '0'
  {
    if n < 10 then [DigitChar(n)] else NatToString(n / 10) + [DigitChar(n % 10)]
  }

  /** Reading back the decimal rendering gives the number. */
  lemma {:induction false} ParseNatToString(n: nat)
    ensures ParseNat(NatToString(n)) == Some(n)
    decreases n
  {
    var s := NatToString(n);
    if n < 10 {
      assert s[..|s| - 1] == [];
    } else {
      ParseNatToString(n / 10);
      assert s[..|s| - 1] == NatToString(n / 10);
      assert DigitsValue(s) == (n / 10) * 10 + n % 10;
    }
  }

  /** `s.padStart(width, fill)` for a one-character fill. */
  function PadStart(s: string, width: nat, fill: char): (r: string)
    ensures |r| == if |s| >= width then |s| else width
    ensures r[|r| - |s|..] == s
    ensures forall i :: 0 <= i < |r| - |s| ==> r[i] == fill
  {
    if |s| >= width then s else seq(width - |s|, _ => fill) + s
  }
}

=== FILE: transcription_processor.dfy ===
/** Post-processing of a diarised, sentiment-annotated transcription
    (src/utils/transcription-processor.ts): grouping the words by speaker,
    tallying sentiment segments with a dominant sentiment, the average word
    confidence and the summary that bundles them. */
module TranscriptionProcessor {
  import opened Wrappers
  import opened Strings

  datatype Sentiment = Positive | Negative | Neutral

  /** One recognised word; `speaker` is absent when diarisation gave none. */
  datatype Word = Word(
    word: string,
    start: real,
    end: real,
    confidence: real,
    speaker: Option<nat>,
    sentiment: Option<Sentiment>)

  datatype SentimentSegment = SentimentSegment(sentiment: Sentiment, start: real, end: real)

  datatype SentimentReport = SentimentReport(overall: Sentiment, segments: seq<SentimentSegment>)

  /** The recognizer's response as this module reads it. */
  datatype TranscriptionResponse = TranscriptionResponse(
    transcript: string,
    confidence: real,
    words: seq<Word>,
    speakers: nat,
    sentiment: SentimentReport)

  /** The words of one speaker, in input order, and their text. */
  datatype SpeakerSegment = SpeakerSegment(speaker: nat, text: string, words: seq<Word>)

  datatype SentimentTrends = SentimentTrends(positive: nat, negative: nat, neutral: nat, dominantSentiment: Sentiment)

  datatype Summary = Summary(totalSpeakers: nat, overallSentiment: Sentiment, averageConfidence: real)

  datatype FormattedResults = FormattedResults(
    summary: Summary,
    speakerSegments: seq<SpeakerSegment>,
    sentimentAnalysis: SentimentTrends)

  // ---------------------------------------------------------------------------
  // Reference definitions

  /** The words of speaker `s`, in input order. */
  function SpokenBy(words: seq<Word>, s: nat): seq<Word>
    decreases |words|
  {
    if |words| == 0 then []
    else
      var last := words[|words| - 1];
      SpokenBy(words[..|words| - 1], s) + (if last.speaker == Some(s) then [last] else [])
  }

  /** The concatenation of `" " + word` over `ws`. */
  function SpacedText(ws: seq<Word>): string
    decreases |ws|
  {
    if |ws| == 0 then "" else SpacedText(ws[..|ws| - 1]) + " " + ws[|ws| - 1].word
  }

  /** Some word has speaker id `s`. */
  ghost predicate HasSpeaker(words: seq<Word>, s: nat) {
    exists j :: 0 <= j < |words| && words[j].speaker == Some(s)
  }

  predicate StrictlyIncreasing(xs: seq<nat>) {
    forall i, j :: 0 <= i < j < |xs| ==> xs[i] < xs[j]
  }

  /** The segments in `segs` with sentiment `c`. */
  function CountOf(segs: seq<SentimentSegment>, c: Sentiment): nat
    decreases |segs|
  {
    if |segs| == 0 then 0
    else CountOf(segs[..|segs| - 1], c) + (if segs[|segs| - 1].sentiment == c then 1 else 0)
  }

  // ---------------------------------------------------------------------------
  // groupBySpeaker

  /** What the source accumulates per speaker: the text so far and the words. */
  datatype Accumulated = Accumulated(text: string, words: seq<Word>)

  /** One step of the `forEach`: a word without speaker is skipped; otherwise
      its speaker's entry is created if missing and extended. */
  function AddWord(acc: map<nat, Accumulated>, w: Word): map<nat, Accumulated> {
    match w.speaker
    case None => acc
    case Some(s) =>
      var prev := if s in acc then acc[s] else Accumulated("", []);
      acc[s := Accumulated(prev.text + " " + w.word, prev.words + [w])]
  }

  /** The `segments` record after the `forEach` over `words`. */
  function Accumulate(words: seq<Word>): map<nat, Accumulated>
    decreases |words|
  {
    if |words| == 0 then map[] else AddWord(Accumulate(words[..|words| - 1]), words[|words| - 1])
  }

  /** A speaker occurs in `words` when it occurs before the last word or is
      the last word's speaker. */
  lemma HasSpeakerSnoc(words: seq<Word>, s: nat)
    requires |words| > 0
    ensures HasSpeaker(words, s) <==>
      HasSpeaker(words[..|words| - 1], s) || words[|words| - 1].speaker == Some(s)
  {
    var init := words[..|words| - 1];
    if HasSpeaker(init, s) {
      var j :| 0 <= j < |init| && init[j].speaker == Some(s);
      assert words[j] == init[j];
    }
    if HasSpeaker(words, s) && words[|words| - 1].speaker != Some(s) {
      var j :| 0 <= j < |words| && words[j].speaker == Some(s);
      assert init[j] == words[j];
    }
  }

  /** The accumulated record has an entry exactly for the speakers that
      occur. */
  lemma {:induction false} AccumulateKeys(words: seq<Word>)
    ensures forall s :: s in Accumulate(words) <==> HasSpeaker(words, s)
    decreases |words|
  {
    if |words| > 0 {
      AccumulateKeys(words[..|words| - 1]);
      forall s: nat
        ensures s in Accumulate(words) <==> HasSpeaker(words, s)
      {
        HasSpeakerSnoc(words, s);
      }
    }
  }

  /** The accumulated entry of each speaker holds exactly that speaker's
      words in order, and their spaced text. */
  lemma {:induction false} AccumulateIsPerSpeaker(words: seq<Word>)
    ensures forall s :: s in Accumulate(words) ==>
      Accumulate(words)[s] == Accumulated(SpacedText(SpokenBy(words, s)), SpokenBy(words, s))
    decreases |words|
  {
    if |words| > 0 {
      var init := words[..|words| - 1];
      var last := words[|words| - 1];
      AccumulateIsPerSpeaker(init);
      AccumulateKeys(init);
      forall s | s in Accumulate(words)
        ensures Accumulate(words)[s] == Accumulated(SpacedText(SpokenBy(words, s)), SpokenBy(words, s))
      {
        var before := SpokenBy(init, s);
        if last.speaker == Some(s) {
          assert SpokenBy(words, s) == before + [last];
          SpacedTextSnoc(before, last);
          if s !in Accumulate(init) {
            SpokenByWithoutSpeaker(init, s);
          }
        } else {
          assert SpokenBy(words, s) == before + [];
          assert before + [] == before;
        }
      }
    }
  }

  /** Appending a word appends a space and the word to the spaced text. */
  lemma SpacedTextSnoc(ws: seq<Word>, w: Word)
    ensures SpacedText(ws + [w]) == SpacedText(ws) + " " + w.word
  {
    assert (ws + [w])[..|ws|] == ws;
  }

  /** A speaker that does not occur has no words. */
  lemma {:induction false} SpokenByWithoutSpeaker(words: seq<Word>, s: nat)
    requires !HasSpeaker(words, s)
    ensures SpokenBy(words, s) == []
    decreases |words|
  {
    if |words| > 0 {
      var init := words[..|words| - 1];
      assert !HasSpeaker(init, s) by {
        forall j | 0 <= j < |init|
          ensures init[j].speaker != Some(s)
        {
          assert init[j] == words[j];
        }
      }
      SpokenByWithoutSpeaker(init, s);
      assert words[|words| - 1].speaker != Some(s);
    }
  }

  /** Inserts `x` into a strictly increasing list, unless it is present. */
  function InsertSorted(xs: seq<nat>, x: nat): (r: seq<nat>)
    requires StrictlyIncreasing(xs)
    ensures StrictlyIncreasing(r)
    ensures forall y :: y in r <==> y in xs || y == x
    decreases |xs|
  {
    if |xs| == 0 then [x]
    else if x < xs[0] then [x] + xs
    else if x == xs[0] then xs
    else
      var rest := InsertSorted(xs[1..], x);
      assert forall y :: y in xs[1..] ==> xs[0] < y;
      var r := [xs[0]] + rest;
      forall i | 0 < i < |r|
        ensures xs[0] < r[i]
      {
        assert r[i] == rest[i - 1] && rest[i - 1] in rest;
      }
      r
  }

  /** The distinct speaker ids of `words` in ascending order: the order in
      which `Object.entries` lists the integer keys of the record. */
  function SpeakerIds(words: seq<Word>): (ids: seq<nat>)
    ensures StrictlyIncreasing(ids)
    ensures forall s :: s in ids <==> HasSpeaker(words, s)
    decreases |words|
  {
    if |words| == 0 then []
    else
      var init := words[..|words| - 1];
      var last := words[|words| - 1];
      var ids := SpeakerIds(init);
      var r := match last.speaker
        case None => ids
        case Some(s) => InsertSorted(ids, s);
      forall s: nat
        ensures s in r <==> HasSpeaker(words, s)
      {
        HasSpeakerSnoc(words, s);
      }
      r
  }

  /** `groupBySpeaker`: one segment per distinct speaker id, in ascending id
      order; a segment holds exactly its speaker's words in input order, and
      its text is the trimmed concatenation of `" " + word` over them. Words
      without a speaker appear in no segment. */
  function GroupBySpeaker(words: seq<Word>): (segs: seq<SpeakerSegment>)
    ensures forall i, j :: 0 <= i < j < |segs| ==> segs[i].speaker < segs[j].speaker
    ensures forall s :: HasSpeaker(words, s) <==> exists i :: 0 <= i < |segs| && segs[i].speaker == s
    ensures forall i :: 0 <= i < |segs| ==> segs[i].words == SpokenBy(words, segs[i].speaker)
    ensures forall i :: 0 <= i < |segs| ==> segs[i].text == Trim(SpacedText(segs[i].words))
  {
    var acc := Accumulate(words);
    var ids := SpeakerIds(words);
    AccumulateKeys(words);
    AccumulateIsPerSpeaker(words);
    var segs := Segments(acc, ids);
    SegmentsFacts(words, acc, ids, segs);
    segs
  }

  /** The facts `GroupBySpeaker` promises, for segments built from the
      accumulated record and the sorted speaker ids. */
  lemma SegmentsFacts(words: seq<Word>, acc: map<nat, Accumulated>, ids: seq<nat>, segs: seq<SpeakerSegment>)
    requires StrictlyIncreasing(ids)
    requires forall s :: s in ids <==> HasSpeaker(words, s)
    requires forall s :: s in acc <==> HasSpeaker(words, s)
    requires forall s :: s in acc ==> acc[s] == Accumulated(SpacedText(SpokenBy(words, s)), SpokenBy(words, s))
    requires |segs| == |ids|
    requires forall i :: 0 <= i < |ids| ==> segs[i] == SpeakerSegment(ids[i], Trim(acc[ids[i]].text), acc[ids[i]].words)
    ensures forall i, j :: 0 <= i < j < |segs| ==> segs[i].speaker < segs[j].speaker
    ensures forall s :: HasSpeaker(words, s) <==> exists i :: 0 <= i < |segs| && segs[i].speaker == s
    ensures forall i :: 0 <= i < |segs| ==> segs[i].words == SpokenBy(words, segs[i].speaker)
    ensures forall i :: 0 <= i < |segs| ==> segs[i].text == Trim(SpacedText(segs[i].words))
  {
    var speakers := seq(|segs|, i requires 0 <= i < |segs| => segs[i].speaker);
    assert speakers == ids;
    forall s: nat | HasSpeaker(words, s)
      ensures exists i :: 0 <= i < |segs| && segs[i].speaker == s
    {
      var i :| 0 <= i < |ids| && ids[i] == s;
      assert speakers[i] == s;
    }
    forall i | 0 <= i < |segs|
      ensures segs[i].words == SpokenBy(words, segs[i].speaker)
      ensures segs[i].text == Trim(SpacedText(segs[i].words))
    {
      assert ids[i] in ids;
      var a := acc[ids[i]];
      assert segs[i] == SpeakerSegment(ids[i], Trim(a.text), a.words);
    }
  }

  /** `Object.entries(segments).map(...)`: one segment per listed id, with
      the accumulated text trimmed. */
  function Segments(acc: map<nat, Accumulated>, ids: seq<nat>): (segs: seq<SpeakerSegment>)
    requires forall i :: 0 <= i < |ids| ==> ids[i] in acc
    ensures |segs| == |ids|
    ensures forall i :: 0 <= i < |ids| ==>
      segs[i] == SpeakerSegment(ids[i], Trim(acc[ids[i]].text), acc[ids[i]].words)
  {
    seq(|ids|, i requires 0 <= i < |ids| => SpeakerSegment(ids[i], Trim(acc[ids[i]].text), acc[ids[i]].words))
  }

  /** Every word of a segment belongs to the segment's speaker, and every word
      of a speaker is in the segment's word list. */
  lemma {:induction false} SpokenByMembers(words: seq<Word>, s: nat)
    ensures forall w :: w in SpokenBy(words, s) <==> w in words && w.speaker == Some(s)
    decreases |words|
  {
    if |words| > 0 {
      var init := words[..|words| - 1];
      SpokenByMembers(init, s);
      assert words == init + [words[|words| - 1]];
    }
  }

  /** Each word with a speaker lands in the segment of its speaker. */
  lemma WordInItsSpeakersSegment(words: seq<Word>, j: nat)
    requires j < |words| && words[j].speaker.Some?
    ensures var segs := GroupBySpeaker(words);
      exists i :: 0 <= i < |segs| && segs[i].speaker == words[j].speaker.value && words[j] in segs[i].words
  {
    var segs := GroupBySpeaker(words);
    var w := words[j];
    var s := w.speaker.value;
    assert HasSpeaker(words, s);
    var i :| 0 <= i < |segs| && segs[i].speaker == s;
    SpokenByMembers(words, s);
    assert w in segs[i].words;
  }

  /** A word lands in no segment other than the one of its speaker, so words
      without a speaker land in none. */
  lemma WordOnlyInItsSpeakersSegment(words: seq<Word>, w: Word, i: nat)
    requires i < |GroupBySpeaker(words)| && w in GroupBySpeaker(words)[i].words
    ensures w in words && w.speaker == Some(GroupBySpeaker(words)[i].speaker)
  {
    SpokenByMembers(words, GroupBySpeaker(words)[i].speaker);
  }

  // ---------------------------------------------------------------------------
  // analyzeSentimentTrends

  /** The three counters after the `forEach` over the segments. */
  function Tally(segs: seq<SentimentSegment>): (t: (nat, nat, nat))
    ensures t.0 + t.1 + t.2 == |segs|
    decreases |segs|
  {
    if |segs| == 0 then (0, 0, 0)
    else
      var t := Tally(segs[..|segs| - 1]);
      match segs[|segs| - 1].sentiment
      case Positive => (t.0 + 1, t.1, t.2)
      case Negative => (t.0, t.1 + 1, t.2)
      case Neutral => (t.0, t.1, t.2 + 1)
  }

  /** `reduce((a, b) => a[1] > b[1] ? a : b)` over non-empty entries: the
      result is an entry with the largest count, and every entry after it
      has a strictly smaller count, so ties go to the later entry. */
  function LastMaximum(entries: seq<(Sentiment, nat)>): (r: nat)
    requires |entries| > 0
    ensures r < |entries|
    ensures forall j :: 0 <= j < |entries| ==> entries[j].1 <= entries[r].1
    ensures forall j :: r < j < |entries| ==> entries[j].1 < entries[r].1
    decreases |entries|
  {
    if |entries| == 1 then 0
    else
      var a := LastMaximum(entries[..|entries| - 1]);
      if entries[a].1 > entries[|entries| - 1].1 then a else |entries| - 1
  }

  /** `analyzeSentimentTrends`: the counts of each sentiment, adding up to
      the number of segments, and the dominant sentiment, which has the
      largest count and is the last such one in the order positive,
      negative, neutral. */
  function AnalyzeSentimentTrends(segs: seq<SentimentSegment>): (r: SentimentTrends)
    ensures r.positive == CountOf(segs, Positive)
    ensures r.negative == CountOf(segs, Negative)
    ensures r.neutral == CountOf(segs, Neutral)
    ensures r.positive + r.negative + r.neutral == |segs|
    ensures r.dominantSentiment == Positive <==> r.positive > r.negative && r.positive > r.neutral
    ensures r.dominantSentiment == Negative <==> r.negative >= r.positive && r.negative > r.neutral
    ensures r.dominantSentiment == Neutral <==> r.neutral >= r.positive && r.neutral >= r.negative
  {
    var t := Tally(segs);
    TallyCounts(segs);
    var entries := [(Positive, t.0), (Negative, t.1), (Neutral, t.2)];
    var k := LastMaximum(entries);
    assert entries[0].1 == t.0 && entries[1].1 == t.1 && entries[2].1 == t.2;
    assert k == 0 ==> entries[k].0 == Positive;
    assert k == 1 ==> entries[k].0 == Negative;
    assert k == 2 ==> entries[k].0 == Neutral;
    SentimentTrends(t.0, t.1, t.2, entries[k].0)
  }

  /** The tally agrees with counting each sentiment separately. */
  lemma {:induction false} TallyCounts(segs: seq<SentimentSegment>)
    ensures Tally(segs) == (CountOf(segs, Positive), CountOf(segs, Negative), CountOf(segs, Neutral))
    decreases |segs|
  {
    if |segs| > 0 {
      TallyCounts(segs[..|segs| - 1]);
    }
  }

  /** With no segments, or with all three counts equal, the dominant
      sentiment is neutral. */
  lemma TiesGoToNeutral(segs: seq<SentimentSegment>)
    requires CountOf(segs, Positive) == CountOf(segs, Negative) == CountOf(segs, Neutral)
    ensures AnalyzeSentimentTrends(segs).dominantSentiment == Neutral
  {
  }

  // ---------------------------------------------------------------------------
  // calculateAverageConfidence and the summary

  function SumConfidence(words: seq<Word>): real
    decreases |words|
  {
    if |words| == 0 then 0.0 else SumConfidence(words[..|words| - 1]) + words[|words| - 1].confidence
  }

  /** `calculateAverageConfidence`: 0 for no words, otherwise the mean,
      which lies in [0, 1] when every confidence does. */
  function AverageConfidence(words: seq<Word>): (r: real)
    ensures |words| == 0 ==> r == 0.0
    ensures (forall i :: 0 <= i < |words| ==> 0.0 <= words[i].confidence <= 1.0) ==> 0.0 <= r <= 1.0
  {
    if |words| == 0 then 0.0
    else
      SumConfidenceBounds(words);
      SumConfidence(words) / (|words| as real)
  }

  /** The sum of confidences in [0, 1] lies in [0, n]. */
  lemma {:induction false} SumConfidenceBounds(words: seq<Word>)
    ensures (forall i :: 0 <= i < |words| ==> 0.0 <= words[i].confidence <= 1.0) ==>
      0.0 <= SumConfidence(words) <= |words| as real
    decreases |words|
  {
    if |words| > 0 {
      var init := words[..|words| - 1];
      SumConfidenceBounds(init);
      if forall i :: 0 <= i < |words| ==> 0.0 <= words[i].confidence <= 1.0 {
        assert forall i :: 0 <= i < |init| ==> init[i] == words[i];
      }
    }
  }

  /** `formatTranscriptionResults`: the summary passes the speaker count and
      the overall sentiment through unchanged. */
  function FormatTranscriptionResults(response: TranscriptionResponse): (r: FormattedResults)
    ensures r.summary.totalSpeakers == response.speakers
    ensures r.summary.overallSentiment == response.sentiment.overall
    ensures |response.words| == 0 ==> r.summary.averageConfidence == 0.0
    ensures r.speakerSegments == GroupBySpeaker(response.words)
    ensures r.sentimentAnalysis == AnalyzeSentimentTrends(response.sentiment.segments)
  {
    FormattedResults(
      Summary(response.speakers, response.sentiment.overall, AverageConfidence(response.words)),
      GroupBySpeaker(response.words),
      AnalyzeSentimentTrends(response.sentiment.segments))
  }
}

=== FILE: voice_chat.dfy ===
/** The state transitions of the voice-chat component
    (src/components/voice-chat.tsx): sending a message and receiving the
    answer, retrying, clearing, editing the input, and attaching the speaker
    returned by speech-to-text. Each handler is one transition of the whole
    component state; the network calls are replaced by their outcomes and the
    random message ids are parameters. */
module VoiceChat {
  import opened Wrappers
  import opened Strings
  import opened ChatTypes

  /** The most characters the input box keeps. */
  const MaxMessageLength: nat := 1000

  datatype Status = Sending | Sent | Delivered | Error

  /** A chat message; `status` and `speaker` are optional, as in the component. */
  datatype Message = Message(id: string, role: Role, content: string, status: Option<Status>, speaker: Option<string>)

  const WelcomeText: string :=
    "\U{1F44B} Hello! I'm your AI assistant. You can ask me questions using voice or text. Try one of the sample questions below to get started."

  /** The assistant message every conversation starts with. */
  const WelcomeMessage: Message := Message("welcome", Assistant, WelcomeText, Some(Delivered), None)

  /** What the assistant says when a question could not be answered. */
  const ApologyText: string := "I apologize, but I'm having trouble connecting. Please try again."

  /** The component state the handlers read and write. */
  datatype ChatState = ChatState(
    messages: seq<Message>,
    input: string,
    isProcessing: bool,
    audioUrl: string,
    currentSpeaker: string)

  const InitialState: ChatState := ChatState([WelcomeMessage], "", false, "", "")

  /** JavaScript truthiness of an optional string. */
  predicate IsSet(s: Option<string>) {
    s.Some? && s.value != ""
  }

  // ---------------------------------------------------------------------------
  // Input and clearing

  /** `setInput(value.slice(0, MAX_MESSAGE_LENGTH))`. */
  function EditInput(s: ChatState, typed: string): (t: ChatState)
    ensures t == s.(input := t.input)
    ensures |t.input| <= MaxMessageLength && |t.input| <= |typed|
    ensures t.input == typed[..|t.input|]
    ensures |typed| <= MaxMessageLength ==> t.input == typed
    ensures |typed| > MaxMessageLength ==> |t.input| == MaxMessageLength
  {
    s.(input := if |typed| <= MaxMessageLength then typed else typed[..MaxMessageLength])
  }

  /** Typing an already truncated text again changes nothing. */
  lemma EditInputIdempotent(s: ChatState, typed: string)
    ensures EditInput(EditInput(s, typed), EditInput(s, typed).input) == EditInput(s, typed)
  {
  }

  /** `handleClearChat`: back to the welcome message with empty input and no audio. */
  function ClearChat(s: ChatState): (t: ChatState)
    ensures t.messages == [WelcomeMessage] && t.input == "" && t.audioUrl == ""
    ensures t.isProcessing == s.isProcessing && t.currentSpeaker == s.currentSpeaker
  {
    s.(messages := [WelcomeMessage], input := "", audioUrl := "")
  }

  // ---------------------------------------------------------------------------
  // Submitting

  /** The `{role, content}` history sent with a question. */
  function History(msgs: seq<Message>): (h: seq<HistoryEntry>)
    ensures |h| == |msgs|
    ensures forall i :: 0 <= i < |msgs| ==> h[i] == HistoryEntry(RoleName(msgs[i].role), msgs[i].content)
  {
    seq(|msgs|, i requires 0 <= i < |msgs| => HistoryEntry(RoleName(msgs[i].role), msgs[i].content))
  }

  /** The JSON body posted to the chat proxy. */
  datatype ChatRequest = ChatRequest(message: string, history: seq<HistoryEntry>)

  /** A submit's effect: the new state, and the request it sends, if any. */
  datatype Submission = Submission(state: ChatState, request: Option<ChatRequest>)

  /** `retryContent || input`. */
  function MessageContent(input: string, retryContent: Option<string>): string {
    if IsSet(retryContent) then retryContent.value else input
  }

  /** The guard of `handleSubmit`: nothing to send, or a question already pending. */
  predicate SubmitRefused(closure: ChatState, retryContent: Option<string>) {
    (IsBlank(MessageContent(closure.input, retryContent)) && !IsSet(retryContent)) || closure.isProcessing
  }

  /** The synchronous part of `handleSubmit`, up to the request. `closure` is
      the state the handler was created with; the new user message is
      appended to `base`, the list the functional update sees. */
  function StartSubmission(closure: ChatState, base: seq<Message>, retryContent: Option<string>, id: string): (r: Submission)
    ensures r.request.None? <==> SubmitRefused(closure, retryContent)
    ensures r.request.None? ==> r.state == closure.(messages := base)
    ensures r.request.Some? ==>
              var content := MessageContent(closure.input, retryContent);
              && r.state.messages == base + [Message(id, User, content, Some(Sending), None)]
              && r.state.input == "" && r.state.isProcessing
              && r.state.audioUrl == closure.audioUrl && r.state.currentSpeaker == closure.currentSpeaker
              && r.request.value == ChatRequest(content, History(closure.messages))
  {
    var content := if IsSet(retryContent) then retryContent.value else closure.input;
    if (Trim(content) == [] && !IsSet(retryContent)) || closure.isProcessing then
      Submission(closure.(messages := base), None)
    else
      var user := Message(id, User, content, Some(Sending), None);
      Submission(closure.(messages := base + [user], input := "", isProcessing := true),
                 Some(ChatRequest(content, History(closure.messages))))
  }

  /** `handleSubmit` from the form or the keyboard shortcut. */
  function HandleSubmit(s: ChatState, retryContent: Option<string>, id: string): (r: Submission)
    ensures r.request.None? <==> SubmitRefused(s, retryContent)
    ensures r.request.None? ==> r.state == s
    ensures r.request.Some? ==>
              && |r.state.messages| == |s.messages| + 1
              && r.state.messages[..|s.messages|] == s.messages
              && r.request.value.history == History(r.state.messages[..|s.messages|])
              && r.state.messages[|s.messages|] == Message(id, User, MessageContent(s.input, retryContent), Some(Sending), None)
              && r.request.value.message == MessageContent(s.input, retryContent)
              && r.state.input == "" && r.state.isProcessing
              && r.state.audioUrl == s.audioUrl && r.state.currentSpeaker == s.currentSpeaker
  {
    var r := StartSubmission(s, s.messages, retryContent, id);
    assert r.request.Some? ==> r.state.messages[..|s.messages|] == s.messages;
    r
  }

  /** A submit with no retry content and a blank input is refused, and so is
      any submit while a question is pending. */
  lemma BlankInputRefused(s: ChatState, id: string)
    requires IsBlank(s.input) || s.isProcessing
    ensures HandleSubmit(s, None, id) == Submission(s, None)
  {
  }

  /** `setMessages(prev => prev.map(msg => msg.id === id ? {...msg, status: "delivered"} : msg))`. */
  function MarkDelivered(msgs: seq<Message>, id: string): (r: seq<Message>)
    ensures |r| == |msgs|
    ensures forall i :: 0 <= i < |msgs| && msgs[i].id != id ==> r[i] == msgs[i]
    ensures forall i :: 0 <= i < |msgs| && msgs[i].id == id ==> r[i] == msgs[i].(status := Some(Delivered))
  {
    seq(|msgs|, i requires 0 <= i < |msgs| => if msgs[i].id == id then msgs[i].(status := Some(Delivered)) else msgs[i])
  }

  /** Marking twice is marking once. */
  lemma MarkDeliveredIdempotent(msgs: seq<Message>, id: string)
    ensures MarkDelivered(MarkDelivered(msgs, id), id) == MarkDelivered(msgs, id)
  {
  }

  /** The parsed body of the proxy's answer, as far as the component reads it. */
  datatype ReplyBody = UnparsableBody | NullBody | ReplyFields(response: Option<string>)

  /** How the `fetch` to the proxy ended. */
  datatype ChatReply = FetchRejected | Answered(ok: bool, body: ReplyBody)

  /** Whether the reply carries an answer the component shows. */
  predicate HasAnswer(reply: ChatReply) {
    reply.Answered? && reply.ok && reply.body.ReplyFields? && IsSet(reply.body.response)
  }

  /** The rest of `handleSubmit`, once the proxy call has settled: the user
      message `userId` becomes delivered if a response arrived at all, then
      one assistant message is appended, the answer or the apology. */
  function FinishSubmit(s: ChatState, userId: string, reply: ChatReply, assistantId: string): (t: ChatState)
    ensures |t.messages| == |s.messages| + 1
    ensures t.messages[..|s.messages|] == if reply.Answered? then MarkDelivered(s.messages, userId) else s.messages
    ensures var last := t.messages[|s.messages|];
      && last.id == assistantId && last.role == Assistant && last.speaker.None?
      && (HasAnswer(reply) ==> last.content == reply.body.response.value && last.status == Some(Delivered))
      && (!HasAnswer(reply) ==> last.content == ApologyText && last.status == Some(Error))
    ensures !t.isProcessing
    ensures t.input == s.input && t.audioUrl == s.audioUrl && t.currentSpeaker == s.currentSpeaker
  {
    var marked := if reply.Answered? then MarkDelivered(s.messages, userId) else s.messages;
    var answer :=
      if HasAnswer(reply) then Message(assistantId, Assistant, reply.body.response.value, Some(Delivered), None)
      else Message(assistantId, Assistant, ApologyText, Some(Error), None);
    assert (marked + [answer])[..|s.messages|] == marked;
    s.(messages := marked + [answer], isProcessing := false)
  }

  // ---------------------------------------------------------------------------
  // Retrying

  /** `retryMessage(index)`: only a user message can be retried; the list is
      cut after it and its content submitted again. The submit still sees
      the handler's own, uncut state, so the history it sends is the whole
      list. An index outside the list makes the handler throw, leaving the
      state as it was. */
  function RetryMessage(s: ChatState, index: int, id: string): (r: Submission)
    ensures !(0 <= index < |s.messages|) || s.messages[index].role != User ==> r == Submission(s, None)
    ensures 0 <= index < |s.messages| && s.messages[index].role == User ==>
              && |r.state.messages| > index
              && r.state.messages[..index + 1] == s.messages[..index + 1]
              && (r.request.None? <==> SubmitRefused(s, Some(s.messages[index].content)))
              && (r.request.Some? ==>
                    |r.state.messages| == index + 2
                    && r.state.messages[index + 1]
                         == Message(id, User, MessageContent(s.input, Some(s.messages[index].content)), Some(Sending), None)
                    && r.request.value == ChatRequest(MessageContent(s.input, Some(s.messages[index].content)), History(s.messages))
                    && r.state.input == "" && r.state.isProcessing
                    && r.state.audioUrl == s.audioUrl && r.state.currentSpeaker == s.currentSpeaker)
              && (r.request.None? ==> r.state == s.(messages := s.messages[..index + 1]))
  {
    if !(0 <= index < |s.messages|) || s.messages[index].role != User then Submission(s, None)
    else
      var r := StartSubmission(s, s.messages[..index + 1], Some(s.messages[index].content), id);
      assert r.request.Some? ==> r.state.messages[..index + 1] == s.messages[..index + 1];
      r
  }

  // ---------------------------------------------------------------------------
  // Speech to text

  /** `data.speaker` of the speech-to-text answer: present, with an optional
      `speaker` property. */
  datatype SpeakerData = SpeakerData(speaker: Option<string>)

  datatype SttBody = SttUnparsable | SttNull | SttFields(text: string, speaker: Option<SpeakerData>)

  /** How the `fetch` to the speech-to-text route ended. */
  datatype SttReply = SttRejected | SttAnswered(ok: bool, body: SttBody)

  /** The form posted to the speech-to-text route: the recording, plus the
      current speaker when there is one. */
  datatype SttRequest = SttRequest(audio: seq<bv8>, speakerData: Option<string>)

  /** The speaker label given to every user message that has none yet. */
  function AttachSpeaker(msgs: seq<Message>, speaker: Option<string>): (r: seq<Message>)
    ensures |r| == |msgs|
    ensures forall i :: 0 <= i < |msgs| ==>
              if msgs[i].role == User && !IsSet(msgs[i].speaker) then r[i] == msgs[i].(speaker := speaker)
              else r[i] == msgs[i]
  {
    seq(|msgs|, i requires 0 <= i < |msgs| =>
      if msgs[i].role == User && !IsSet(msgs[i].speaker) then msgs[i].(speaker := speaker) else msgs[i])
  }

  /** Once a non-empty label is attached, a later label changes nothing. */
  lemma AttachSpeakerSticks(msgs: seq<Message>, first: string, second: Option<string>)
    requires first != ""
    ensures AttachSpeaker(AttachSpeaker(msgs, Some(first)), second) == AttachSpeaker(msgs, Some(first))
  {
  }

  /** Attaching a speaker keeps ids, roles, contents and statuses. */
  lemma AttachSpeakerKeepsMessages(msgs: seq<Message>, speaker: Option<string>)
    ensures forall i :: 0 <= i < |msgs| ==>
              var m := AttachSpeaker(msgs, speaker)[i];
              m.id == msgs[i].id && m.role == msgs[i].role && m.content == msgs[i].content && m.status == msgs[i].status
  {
  }

  /** `handleSpeechToText`: the request it posts, and the state once the
      call has settled. A successful answer fills the input and labels the
      unlabelled user messages; in every case processing ends and the
      current speaker is forgotten. */
  function HandleSpeechToText(s: ChatState, audio: seq<bv8>, reply: SttReply): (r: (SttRequest, ChatState))
    ensures r.0 == SttRequest(audio, if s.currentSpeaker != "" then Some(s.currentSpeaker) else None)
    ensures !r.1.isProcessing && r.1.currentSpeaker == ""
    ensures r.1.audioUrl == s.audioUrl
    ensures reply.SttAnswered? && reply.ok && reply.body.SttFields? ==>
              r.1.input == reply.body.text
              && r.1.messages == (if reply.body.speaker.Some? then AttachSpeaker(s.messages, reply.body.speaker.value.speaker)
                                  else s.messages)
    ensures !(reply.SttAnswered? && reply.ok && reply.body.SttFields?) ==> r.1.input == s.input && r.1.messages == s.messages
  {
    var request := SttRequest(audio, if s.currentSpeaker != "" then Some(s.currentSpeaker) else None);
    var settled :=
      match reply
      case SttAnswered(true, SttFields(text, speaker)) =>
        s.(input := text,
           messages := if speaker.Some? then AttachSpeaker(s.messages, speaker.value.speaker) else s.messages)
      case _ => s;
    (request, settled.(isProcessing := false, currentSpeaker := ""))
  }

  /** One entry of the recognizer's result list: whether it is final and how
      many alternatives it holds. */
  datatype SpeechResult = SpeechResult(isFinal: bool, alternatives: nat)

  /** The recognizer's `onresult`: a final result at `index` sets the current
      speaker, alternating between two labels by the parity of `index` when
      the result has several alternatives, and empty when it has exactly one.
      An index outside the list, or a final result without a first
      alternative to read the transcript from, makes the handler throw
      before the speaker is set. */
  function OnRecognitionResult(s: ChatState, index: nat, results: seq<SpeechResult>): (t: ChatState)
    ensures t == s.(currentSpeaker := t.currentSpeaker)
    ensures index >= |results| || !results[index].isFinal || results[index].alternatives == 0 ==> t == s
    ensures index < |results| && results[index].isFinal && results[index].alternatives > 1 ==>
              t.currentSpeaker == (if index % 2 == 0 then "Speaker 1" else "Speaker 2")
    ensures index < |results| && results[index].isFinal && results[index].alternatives == 1 ==> t.currentSpeaker == ""
  {
    if index >= |results| || !results[index].isFinal || results[index].alternatives == 0 then s
    else if results[index].alternatives > 1 then
      s.(currentSpeaker := "Speaker " + [DigitChar(index % 2 + 1)])
    else s.(currentSpeaker := "")
  }

  // ---------------------------------------------------------------------------
  // The retry button is never shown

  /** The condition under which a message shows the retry button. */
  predicate ShowsRetry(m: Message) {
    m.role == User && m.status == Some(Error)
  }

  predicate NoRetryButton(msgs: seq<Message>) {
    forall i :: 0 <= i < |msgs| ==> !ShowsRetry(msgs[i])
  }

  /** Everything that can happen to the component. */
  datatype Event =
    | Edit(typed: string)
    | Clear
    | Submit(retryContent: Option<string>, id: string)
    | Retry(index: int, retryId: string)
    | Settle(userId: string, reply: ChatReply, assistantId: string)
    | Transcribe(audio: seq<bv8>, sttReply: SttReply)
    | Recognized(resultIndex: nat, results: seq<SpeechResult>)

  function Step(s: ChatState, e: Event): ChatState {
    match e
    case Edit(typed) => EditInput(s, typed)
    case Clear => ClearChat(s)
    case Submit(retryContent, id) => HandleSubmit(s, retryContent, id).state
    case Retry(index, id) => RetryMessage(s, index, id).state
    case Settle(userId, reply, assistantId) => FinishSubmit(s, userId, reply, assistantId)
    case Transcribe(audio, reply) => HandleSpeechToText(s, audio, reply).1
    case Recognized(index, results) => OnRecognitionResult(s, index, results)
  }

  function Run(s: ChatState, events: seq<Event>): ChatState
    decreases |events|
  {
    if |events| == 0 then s else Step(Run(s, events[..|events| - 1]), events[|events| - 1])
  }

  /** A submit appends, at most, a message that is still sending. */
  lemma SubmitKeepsNoRetryButton(closure: ChatState, base: seq<Message>, retryContent: Option<string>, id: string)
    requires NoRetryButton(base)
    ensures NoRetryButton(StartSubmission(closure, base, retryContent, id).state.messages)
  {
    var r := StartSubmission(closure, base, retryContent, id);
    if r.request.Some? {
      var m := r.state.messages;
      assert forall i :: 0 <= i < |base| ==> m[i] == base[i];
      assert !ShowsRetry(m[|base|]);
    }
  }

  /** A retry keeps a prefix of the list, then submits. */
  lemma RetryKeepsNoRetryButton(s: ChatState, index: int, id: string)
    requires NoRetryButton(s.messages)
    ensures NoRetryButton(RetryMessage(s, index, id).state.messages)
  {
    if 0 <= index < |s.messages| && s.messages[index].role == User {
      var base := s.messages[..index + 1];
      assert forall i :: 0 <= i < |base| ==> base[i] == s.messages[i];
      SubmitKeepsNoRetryButton(s, base, Some(s.messages[index].content), id);
    }
  }

  /** Settling only marks messages delivered and appends an assistant message. */
  lemma SettleKeepsNoRetryButton(s: ChatState, userId: string, reply: ChatReply, assistantId: string)
    requires NoRetryButton(s.messages)
    ensures NoRetryButton(FinishSubmit(s, userId, reply, assistantId).messages)
  {
    var m := FinishSubmit(s, userId, reply, assistantId).messages;
    var prefix := m[..|s.messages|];
    assert forall i :: 0 <= i < |s.messages| ==> m[i] == prefix[i];
    assert forall i :: 0 <= i < |s.messages| ==> !ShowsRetry(prefix[i]);
    assert !ShowsRetry(m[|s.messages|]);
  }

  /** Speech to text changes speakers only. */
  lemma TranscribeKeepsNoRetryButton(s: ChatState, audio: seq<bv8>, reply: SttReply)
    requires NoRetryButton(s.messages)
    ensures NoRetryButton(HandleSpeechToText(s, audio, reply).1.messages)
  {
    if reply.SttAnswered? && reply.ok && reply.body.SttFields? && reply.body.speaker.Some? {
      AttachSpeakerKeepsMessages(s.messages, reply.body.speaker.value.speaker);
    }
  }

  /** No handler gives a user message the `error` status. */
  lemma StepKeepsNoRetryButton(s: ChatState, e: Event)
    requires NoRetryButton(s.messages)
    ensures NoRetryButton(Step(s, e).messages)
  {
    match e
    case Submit(retryContent, id) => SubmitKeepsNoRetryButton(s, s.messages, retryContent, id);
    case Retry(index, id) => RetryKeepsNoRetryButton(s, index, id);
    case Settle(userId, reply, assistantId) => SettleKeepsNoRetryButton(s, userId, reply, assistantId);
    case Transcribe(audio, reply) => TranscribeKeepsNoRetryButton(s, audio, reply);
    case _ =>
  }

  /** Whatever the user does and however the calls end, no message ever
      shows the retry button: its condition is unreachable. */
  lemma {:induction false} RetryButtonNeverShown(events: seq<Event>)
    ensures NoRetryButton(Run(InitialState, events).messages)
    decreases |events|
  {
    if |events| > 0 {
      RetryButtonNeverShown(events[..|events| - 1]);
      StepKeepsNoRetryButton(Run(InitialState, events[..|events| - 1]), events[|events| - 1]);
    }
  }
}

=== FILE: wake_word_detector.dfy ===
/** The always-listening wake-word detector (`WakeWordDetector` in
    src/utils/wake-word-detector.ts). The browser's speech recognizer is not
    part of the model: each handler is a pure transition that returns the new
    detector together with the effects it asks of the outside world (start or
    stop the recognizer, play the detection tone, call the wake callback). */
module WakeWordDetector {
  import opened Wrappers
  import opened Strings

  /** The wake word used when the caller gives none. */
  const DefaultWakeWord: string := "hey assistant"

  /** A final result must be at least this confident to count. */
  const ConfidenceThreshold: real := 0.8

  /** The error name after which the detector restarts itself. */
  const NoSpeechError: string := "no-speech"

  datatype Effect = StartRecognizer | StopRecognizer | PlayDetectionSound | InvokeOnWake

  /** `wakeWord` is stored lower-cased; `isListening` is the detector's own
      flag, not the recognizer's. */
  datatype Detector = Detector(wakeWord: string, isListening: bool)

  /** The outcome of one handler: the new detector and the effects it
      requests, in order. */
  datatype Step = Step(detector: Detector, effects: seq<Effect>)

  /** One entry of `event.results`, reduced to what the handler reads: the
      `isFinal` flag and the first alternative's transcript and confidence. */
  datatype RecognitionResult = RecognitionResult(isFinal: bool, transcript: string, confidence: real)

  /** The events a detector reacts to: the two public controls and the three
      recognizer callbacks. */
  datatype Event =
    | StartCalled
    | StopCalled
    | RestartCalled
    | ResultEvent(results: seq<RecognitionResult>)
    | ErrorEvent(error: string)
    | EndEvent

  /** The constructor: the wake word is lower-cased once, and a new detector
      is not listening. */
  function Create(wakeWord: string): (d: Detector)
    ensures !d.isListening
    ensures d.wakeWord == ToLower(wakeWord)
    ensures forall i :: 0 <= i < |d.wakeWord| ==> !IsUpperAscii(d.wakeWord[i])
  {
    Detector(ToLower(wakeWord), false)
  }

  /** The three accepted spellings of the wake word `w`: as is, with its first
      space removed, and with its first space replaced by a hyphen. */
  function Variations(w: string): seq<string> {
    [w, ReplaceFirst(w, ' ', ""), ReplaceFirst(w, ' ', "-")]
  }

  /** `containsWakeWord`: some spelling of the wake word occurs in the
      transcript. */
  function ContainsWakeWord(d: Detector, transcript: string): (b: bool)
    ensures b <==> exists v, k :: v in Variations(d.wakeWord) && OccursAt(transcript, v, k)
  {
    var vs := Variations(d.wakeWord);
    IncludesIffOccurs(transcript, vs[0]);
    IncludesIffOccurs(transcript, vs[1]);
    IncludesIffOccurs(transcript, vs[2]);
    Includes(transcript, vs[0]) || Includes(transcript, vs[1]) || Includes(transcript, vs[2])
  }

  /** The condition under which a result wakes the detector. */
  ghost predicate Wakes(d: Detector, r: RecognitionResult) {
    && r.isFinal
    && r.confidence >= ConfidenceThreshold
    && exists v, k :: v in Variations(d.wakeWord) && OccursAt(ToLower(r.transcript), v, k)
  }

  /** `onresult`: only the LAST result of the event is examined; the tone is
      played and the callback invoked exactly when that result is final,
      confident enough and contains the wake word once lower-cased. An event
      without results makes the handler throw, which changes nothing. */
  function OnResult(d: Detector, results: seq<RecognitionResult>): (effects: seq<Effect>)
    ensures effects == [] || effects == [PlayDetectionSound, InvokeOnWake]
    ensures effects != [] <==> |results| > 0 && Wakes(d, results[|results| - 1])
  {
    if |results| == 0 then []
    else
      var r := results[|results| - 1];
      if r.isFinal && r.confidence >= ConfidenceThreshold && ContainsWakeWord(d, ToLower(r.transcript))
      then [PlayDetectionSound, InvokeOnWake]
      else []
  }

  /** `start`: the recognizer is started only on a transition from not
      listening to listening. */
  function Start(d: Detector): (s: Step)
    ensures s.detector.isListening && s.detector.wakeWord == d.wakeWord
    ensures StartRecognizer in s.effects <==> !d.isListening
    ensures s.effects == [] || s.effects == [StartRecognizer]
  {
    if !d.isListening then Step(d.(isListening := true), [StartRecognizer]) else Step(d, [])
  }

  /** `stop`: the recognizer is stopped only on a transition from listening
      to not listening. */
  function Stop(d: Detector): (s: Step)
    ensures !s.detector.isListening && s.detector.wakeWord == d.wakeWord
    ensures StopRecognizer in s.effects <==> d.isListening
    ensures s.effects == [] || s.effects == [StopRecognizer]
  {
    if d.isListening then Step(d.(isListening := false), [StopRecognizer]) else Step(d, [])
  }

  /** `restart`: `stop` followed by `start` (the 100 ms delay between them is
      not modelled). It always ends listening, and it stops the recognizer
      first only if the detector was listening. */
  function Restart(d: Detector): (s: Step)
    ensures s.detector == d.(isListening := true)
    ensures s.effects == if d.isListening then [StopRecognizer, StartRecognizer] else [StartRecognizer]
  {
    var stopped := Stop(d);
    var started := Start(stopped.detector);
    Step(started.detector, stopped.effects + started.effects)
  }

  /** `onerror`: only the "no-speech" error restarts the detector; any other
      error is only logged. */
  function OnError(d: Detector, error: string): (s: Step)
    ensures error == NoSpeechError ==> s == Restart(d)
    ensures error != NoSpeechError ==> s == Step(d, [])
  {
    if error == NoSpeechError then Restart(d) else Step(d, [])
  }

  /** `onend`: the recognizer ending on its own is answered with a restart
      only while the detector is listening. */
  function OnEnd(d: Detector): (s: Step)
    ensures d.isListening ==> s == Restart(d)
    ensures !d.isListening ==> s == Step(d, [])
  {
    if d.isListening then Restart(d) else Step(d, [])
  }

  /** Dispatches an event to its handler. */
  function Handle(d: Detector, e: Event): Step {
    match e
    case StartCalled => Start(d)
    case StopCalled => Stop(d)
    case RestartCalled => Restart(d)
    case ResultEvent(results) => Step(d, OnResult(d, results))
    case ErrorEvent(error) => OnError(d, error)
    case EndEvent => OnEnd(d)
  }

  /** Whether the recognizer runs after it performs `effects`, starting from
      `running`. */
  function RunningAfter(running: bool, effects: seq<Effect>): bool
    decreases |effects|
  {
    if |effects| == 0 then running
    else
      var next := match effects[0]
        case StartRecognizer => true
        case StopRecognizer => false
        case _ => running;
      RunningAfter(next, effects[1..])
  }

  // ---------------------------------------------------------------------------
  // Properties

  /** Start and stop are idempotent: repeating either requests nothing and
      leaves the detector as it is. */
  lemma StartStopIdempotent(d: Detector)
    ensures Start(Start(d).detector) == Step(Start(d).detector, [])
    ensures Stop(Stop(d).detector) == Step(Stop(d).detector, [])
  {
  }

  /** Every handler keeps the wake word. */
  lemma HandleKeepsWakeWord(d: Detector, e: Event)
    ensures Handle(d, e).detector.wakeWord == d.wakeWord
  {
  }

  /** Effects other than starting and stopping leave the recognizer as it
      is. */
  lemma RunningAfterWakeEffects(running: bool)
    ensures RunningAfter(running, [PlayDetectionSound, InvokeOnWake]) == running
  {
    assert [PlayDetectionSound, InvokeOnWake][1..] == [InvokeOnWake];
  }

  /** The detector's flag tracks the recognizer: if the recognizer runs
      exactly when the detector is listening, this still holds after any
      handler and the effects it requests. For `onend` the recognizer has
      already stopped, and after the handler the two agree again. */
  lemma ListeningTracksRecognizer(d: Detector, e: Event)
    ensures e != EndEvent ==> RunningAfter(d.isListening, Handle(d, e).effects) == Handle(d, e).detector.isListening
    ensures e == EndEvent ==> RunningAfter(false, Handle(d, e).effects) == Handle(d, e).detector.isListening
  {
    var r := d.isListening;
    assert RunningAfter(r, [StopRecognizer, StartRecognizer]) == true by {
      assert [StopRecognizer, StartRecognizer][1..] == [StartRecognizer];
    }
    if e.ResultEvent? && OnResult(d, e.results) != [] {
      RunningAfterWakeEffects(r);
    }
  }

  /** A "no-speech" error leaves the detector listening even when it was
      stopped, because `restart` always ends with `start`. */
  lemma NoSpeechRestartsStoppedDetector(d: Detector)
    requires !d.isListening
    ensures OnError(d, NoSpeechError).detector.isListening
    ensures OnError(d, NoSpeechError).effects == [StartRecognizer]
  {
  }

  /** Matching ignores ASCII case in the transcript: two transcripts that
      lower-case alike give the same outcome. */
  lemma MatchingIsCaseInsensitive(d: Detector, earlier: seq<RecognitionResult>, r: RecognitionResult, t: string)
    requires ToLower(t) == ToLower(r.transcript)
    ensures OnResult(d, earlier + [r]) == OnResult(d, earlier + [r.(transcript := t)])
  {
  }

  /** Only the last result of an event matters. */
  lemma OnlyLastResultMatters(d: Detector, a: seq<RecognitionResult>, b: seq<RecognitionResult>, r: RecognitionResult)
    ensures OnResult(d, a + [r]) == OnResult(d, b + [r])
  {
  }

  /** A wake word without upper-case letters is stored unchanged. */
  lemma CreateKeepsLowerCase(w: string)
    requires forall i :: 0 <= i < |w| ==> !IsUpperAscii(w[i])
    ensures Create(w).wakeWord == w
  {
    var r := Create(w).wakeWord;
    assert forall i :: 0 <= i < |w| ==> r[i] == w[i];
  }

  /** How the default wake word and its spellings are put together. */
  lemma DefaultWakeWordPieces()
    ensures DefaultWakeWord == "hey" + [' '] + "assistant"
    ensures "hey" + "" + "assistant" == "heyassistant"
    ensures "hey" + "-" + "assistant" == "hey-assistant"
    ensures forall i :: 0 <= i < |DefaultWakeWord| ==> !IsUpperAscii(DefaultWakeWord[i])
  {
  }

  /** The three spellings of the default wake word. */
  lemma DefaultVariations()
    ensures Variations(Create(DefaultWakeWord).wakeWord) == [DefaultWakeWord, "heyassistant", "hey-assistant"]
  {
    DefaultWakeWordPieces();
    CreateKeepsLowerCase(DefaultWakeWord);
    ReplaceFirstAfter("hey", "assistant", ' ', "");
    ReplaceFirstAfter("hey", "assistant", ' ', "-");
  }

  /** With the default wake word, each of the transcripts "hey assistant",
      "heyassistant" and "hey-assistant" is recognised. */
  lemma DefaultWakeWordSpellings(t: string)
    requires t == DefaultWakeWord || t == "heyassistant" || t == "hey-assistant"
    ensures ContainsWakeWord(Create(DefaultWakeWord), t)
  {
    DefaultVariations();
    OccursInItself(t);
    assert t in Variations(Create(DefaultWakeWord).wakeWord);
  }

  /** "OK Hey Assistant" lower-cases to "ok " followed by the default wake
      word. */
  lemma LowerCasedPhrase()
    ensures ToLower("OK Hey Assistant") == "ok " + DefaultWakeWord + ""
  {
    var t := "OK Hey Assistant";
    var lower := ToLower(t);
    assert forall i :: 0 <= i < |t| ==> lower[i] == ("ok " + DefaultWakeWord + "")[i];
  }

  /** A confident final result saying the wake word in capitals inside a
      longer phrase wakes a detector made with the default wake word. */
  lemma DefaultWakeWordInCapitals()
    ensures OnResult(Create(DefaultWakeWord), [RecognitionResult(true, "OK Hey Assistant", 0.9)])
            == [PlayDetectionSound, InvokeOnWake]
  {
    DefaultVariations();
    LowerCasedPhrase();
    OccursAfter("ok ", DefaultWakeWord, "");
  }

  /** How the two-space wake word "ok hey there" is put together. */
  lemma TwoSpacePieces()
    ensures "ok hey there" == "ok" + [' '] + "hey there"
    ensures "ok" + "" + "hey there" == "okhey there"
    ensures "ok" + "-" + "hey there" == "ok-hey there"
  {
  }

  /** Only the first space of the wake word is affected: for a wake word
      with two spaces the other two spellings keep the second space. */
  lemma OnlyFirstSpaceReplaced()
    ensures Variations("ok hey there") == ["ok hey there", "okhey there", "ok-hey there"]
  {
    TwoSpacePieces();
    ReplaceFirstAfter("ok", "hey there", ' ', "");
    ReplaceFirstAfter("ok", "hey there", ' ', "-");
  }

  /** A result below the confidence threshold, or one that is not final,
      never wakes the detector. */
  lemma UnconfidentOrInterimNeverWakes(d: Detector, results: seq<RecognitionResult>)
    requires |results| > 0
    requires !results[|results| - 1].isFinal || results[|results| - 1].confidence < ConfidenceThreshold
    ensures OnResult(d, results) == []
  {
  }
}

=== FILE: wrappers.dfy ===
/** Optional values and fallible results, used wherever the TypeScript code has
    an optional field (`x?: T`) or a path that throws. */
module Wrappers {

  /** An optional value: `None` plays the role of `undefined`/`null`. */
  datatype Option<+T> = None | Some(value: T) {

    /** The value, or `default` when absent (the `?? default` of the source). */
    function GetOr(default: T): T {
      match this
      case Some(v) => v
      case None => default
    }
  }

  /** Either a value or the reason the computation threw. */
  datatype Result<+R, +E> = Ok(value: R) | Err(error: E)
}
